=== FILE: README.md ===
# Digital menu storefront — a Dafny model

This project models the core of a digital menu ("cardápio digital"). The
menu is a single page that reads a restaurant's spreadsheet as JSON. The
spreadsheet has four sheets: products, variations, neighbourhoods and
configuration. The page lets a customer browse and filter the products,
choose variations, and send the order as a WhatsApp message.

Two readers of the same spreadsheet are modelled, and they do not agree:

- the page itself (`src/App.jsx`), with its normalisation, effective
  configuration, filters, sort modes, paging, variation dialog, price and
  message;
- the data hook (`src/hooks/useMenuData.js`) and the standalone product card
  (`src/components/ProductCard.jsx`) that consumes it.

The modules follow the program's structure:

| module | file | models |
|---|---|---|
| `Wrappers` | wrappers.dfy | `Option` |
| `Text` | text.dfy | the string built-ins used: `toLowerCase`, `includes`, `trim`, `split`/`join`, the first-match `replace`, the `\D` strip |
| `Cells` | cells.dfy | a spreadsheet cell and the JavaScript coercions applied to it: `??`, truthiness, `String`, `Number`, `mapNumber` |
| `Catalog` | catalog.dfy | the page's normalisation of the four sheets |
| `Sorting` | sorting.dfy | the stable sort behind `Array.prototype.sort` |
| `AppConfig` | appconfig.dfy | defaults overlaid with the configuration rows, the theme, the id sets |
| `Query` | query.dfy | price ceiling, filter chain, sort modes, paging, category selectors |
| `Order` | order.dfy | grouping of variations, the selection, the price with extras, the order message and link |
| `SheetHook` | hook.dfy | the data hook: sheet routing, typing, pre-sort, joining variations, its own configuration |
| `Card` | card.dfy | the prices and messages of both product cards |

Modelling conventions:

- **Numbers.** A JavaScript number is an `int` counting hundredths
  (`Cells.Scale`). So 9999 is `999900`, and prices are in centavos.
- **Text to number.** `Number` on non-blank text is a parameter
  `parse: string -> Option<int>`, where `None` stands for NaN.
- **Locale-dependent steps are parameters.** These are `toLocaleString` with
  `pt-BR` currency, `encodeURIComponent`, and `localeCompare` with `pt-BR`.
- **Rows.** A spreadsheet row is a `map<string, Cell>`. A missing column is
  the `Missing` cell, which is JavaScript's `undefined`.

## Model

| member | source | states |
|---|---|---|
| `Text.ToLower` | src/App.jsx:77 | lower-casing keeps the length and maps each character by itself |
| `Text.ContainsComplete` | src/App.jsx:77 | every occurrence of the needle makes `includes` true |
| `Text.ContainsSound` | src/App.jsx:77 | `includes` is true only when the needle occurs at some index |
| `Text.Trim` | src/hooks/useMenuData.js:5 | the trimmed text is a stretch of the input with no space at either end, and everything cut from the front and the back is white space |
| `Text.TrimKeepsWord` | src/hooks/useMenuData.js:5 | a word with no space at its ends is still in the text after `trim`, shifted left by the cut |
| `Text.Split` | src/App.jsx:330-331 | splitting gives at least one piece and no piece holds the separator |
| `Text.SplitJoin` | src/App.jsx:330-331 | joining the pieces of a split with the separator gives the input back |
| `Text.JoinHolds` | src/App.jsx:321 | every piece appears in the joined text |
| `Text.ReplaceFirst` | src/App.jsx:142 | the text keeps its length, and is unchanged when there is no comma |
| `Text.ReplaceFirstAt` | src/App.jsx:142 | only the first comma becomes a point: the text before it and after it is kept |
| `Text.DigitsOnly` | src/App.jsx:315 | removing non-digits leaves only digits |
| `Text.DigitsOnlyChar` | src/App.jsx:315 | one character: a digit is kept, anything else is removed |
| `Text.DigitsOnlyConcat` | src/App.jsx:315 | the strip works piece by piece, so the digits come out in the input's order |
| `Text.DigitsOnlyCounts` | src/App.jsx:315 | every digit occurs in the result as often as in the input |
| `Text.DigitsOnlyKeepsDigits` | src/App.jsx:315 | a number written in digits only is left unchanged |
| `Cells.Coalesce` | src/App.jsx:145-155 | `a ?? b ?? … ?? d` is the first candidate that is neither null nor undefined, else the default |
| `Cells.OptText` | src/hooks/useMenuData.js:28-33 | `x?.toString() \|\| ''` is empty exactly for null, undefined and empty text, and is the text of the value otherwise |
| `Cells.NumberOr` | src/hooks/useMenuData.js:32-35 | `Number(x) \|\| d` is the number when it is non-zero and not NaN, else the default |
| `Cells.MapNumber` | src/App.jsx:142 | `mapNumber` is 0 for null, undefined, blank text and booleans, a number cell's own value, and otherwise the non-zero parse of the comma-to-point text, else 0 |
| `Cells.MapNumberAgrees` | src/App.jsx:142 | `mapNumber(x)` equals `Number(x) \|\| 0` except on `true` and on text with a decimal comma |
| `Catalog.Table` | src/App.jsx:137-140 | a sheet is read from the first of its alternative names present in the payload, else it is empty |
| `Catalog.NormProdutoDefaults` | src/App.jsx:146-155 | a product with no active column is active; with no order it gets 9999; with no name it gets ""; with no promotion it gets 0 |
| `Catalog.NormProdutoFirstColumn` | src/App.jsx:145-150 | the first candidate column wins: a text `id` is the id and a numeric `preco_base` is the base price |
| `Catalog.NormProdutosMembers` | src/App.jsx:144-156 | a row's product is kept exactly when its active cell does not read "false", and every kept product is active |
| `Catalog.NormProdutosAppend` | src/App.jsx:144-156 | normalisation works row by row: the products of concatenated rows are the concatenated products |
| `Catalog.DroppedIff` | src/App.jsx:156 | a single row is dropped exactly when its active cell, as lower-case text, is "false" |
| `Catalog.MissingFlagKept` | src/App.jsx:152 | a row without an active column is kept |
| `Catalog.NumericFlagKept` | src/App.jsx:156 | a numeric active cell, 0 included, never drops a product |
| `Catalog.NormVariacoesColumns` | src/App.jsx:158-163 | each variation row gives its own variation: the first column of each field wins, no type column gives the empty type, no extra column adds nothing |
| `Catalog.NormBairrosColumns` | src/App.jsx:165-168 | each neighbourhood row gives its own entry: a text `bairros` is the name and a numeric `taxa` the fee; missing columns give "" and 0 |
| `Catalog.NormConfigsColumns` | src/App.jsx:170-173 | each configuration row gives its own pair: text `chave` and `valor` are used as they are; missing columns give "" |
| `Sorting.SortBy` | src/App.jsx:240-250 | sorting returns a permutation of the input, ordered by the key |
| `Sorting.SortStable` | src/App.jsx:240-250 | among elements with equal keys, the sort keeps the input order |
| `Sorting.SortedUnchanged` | src/App.jsx:240-250 | a list already in order is returned unchanged |
| `AppConfig.GetConfigValue` | src/App.jsx:72-75 | the value of the FIRST row whose key matches ignoring case, or the fallback when none matches |
| `AppConfig.Overlay` | src/App.jsx:196-203 | the overlay keeps the set of keys and leaves keys outside the loop untouched |
| `AppConfig.OverlayValues` | src/App.jsx:198-201 | each key in the loop ends as the matching row's value when that is non-empty, else as its default |
| `AppConfig.EffectiveConfig` | src/App.jsx:196-203 | the effective configuration has exactly the default keys, each resolved from the rows |
| `AppConfig.NoRowsIsDefault` | src/App.jsx:196-203 | without configuration rows the effective configuration is the defaults |
| `AppConfig.OneRowChangesOneKey` | src/App.jsx:196-203 | one row with a known key (any case) and a non-empty value changes that key and nothing else |
| `AppConfig.EmptyValueKeepsDefault` | src/App.jsx:200 | a row with an empty value changes nothing |
| `AppConfig.FirstRowWins` | src/App.jsx:73 | when several rows match a key, the first one decides |
| `AppConfig.ResolveTheme` | src/App.jsx:182-183 | the theme is "light", "dark" or "auto": the configured value when it is one of the three, else "auto" |
| `AppConfig.IdSet` | src/App.jsx:330-331 | the id set never holds "" and holds only trimmed ids |
| `AppConfig.IdSetConcat` | src/App.jsx:330-331 | the ids of two comma-joined lists are the union of their ids |
| `AppConfig.IdSetSingle` | src/App.jsx:330-331 | a single trimmed id without a comma is the whole set |
| `Query.PrecoMax` | src/App.jsx:227-230 | the ceiling is at least 0, bounds every effective price, and is 0 or attained by some product |
| `Query.Ceiling` | src/App.jsx:238 | a ceiling of 0 means no ceiling; a positive one is used as it is and a negative one clamps to 0 |
| `Query.Filtered` | src/App.jsx:234-238 | the filter keeps exactly the products passing category, subcategory, text and price, each no more often than in the catalogue |
| `Query.FilteredAppend` | src/App.jsx:234-238 | the filter works product by product, keeping the catalogue's order and each product's multiplicity |
| `Query.Arrange` | src/App.jsx:240-250 | each sort mode permutes the list into its order: popularity descending if any is positive, else order ascending; price ascending or descending; name by collation; any other mode leaves the list alone |
| `Query.ArrangeStable` | src/App.jsx:240-250 | products that tie on a mode's key keep their filter order |
| `Query.Filtrados` | src/App.jsx:233-253 | the view holds exactly the matching products |
| `Query.CeilingAtMaxKeepsAll` | src/App.jsx:227-238 | with the ceiling at its initial value, the price filter drops nothing |
| `Query.DefaultViewIsIdentity` | src/App.jsx:233-253 | with every selector at "todas", no text, the initial ceiling and an unknown sort mode, the view is the catalogue |
| `Query.FilteredAll` | src/App.jsx:234-238 | when every product matches, the filter changes nothing |
| `Query.NoneMatchFiltered` | src/App.jsx:234-238 | when no product matches, the filter keeps nothing |
| `Query.NoMatchEmpty` | src/App.jsx:237 | a search text that no name or description contains empties the view |
| `Query.VisibleCount` | src/App.jsx:111 | the visible count is always a positive multiple of the page size, and one page right after a filter change |
| `Query.MoreGrows` | src/App.jsx:256-266 | a "more" signal adds exactly one page, and a filter change never raises the count |
| `Query.CountAfterReset` | src/App.jsx:256-266 | k "more" signals after a reset ask for k + 1 pages |
| `Query.Visible` | src/App.jsx:273 | the visible list is a prefix of the view, of the count's length or the whole view |
| `Query.VisibleMonotone` | src/App.jsx:273 | a larger count shows an extension of what a smaller one shows |
| `Query.Distinct` | src/App.jsx:213-215 | the selector list holds no duplicate, extends the initial entries, and holds exactly them and the non-empty values |
| `Query.DistinctSnoc` | src/App.jsx:212-224 | a further value is appended exactly when it is new and non-empty, so entries keep their order of first appearance |
| `Query.Categorias` | src/App.jsx:212-216 | the category list starts with "todas", has no duplicate, and holds exactly the non-empty categories |
| `Query.Subcategorias` | src/App.jsx:218-224 | the subcategory list starts with "todas", has no duplicate, and holds exactly the non-empty subcategories of the selected category |
| `Query.InCategory` | src/App.jsx:221 | the category filter keeps a product exactly when "todas" is selected or its category is selected |
| `Order.Push` | src/App.jsx:280-281 | pushing appends to the key's group only, opening the group if it is new, with keys kept distinct |
| `Order.GroupBy` | src/App.jsx:276-284 | the grouping has distinct keys, and each key's group is exactly the elements with that key in input order |
| `Order.GroupsNonEmpty` | src/App.jsx:288 | a key has a non-empty group exactly when some element carries that key |
| `Order.SelectMembers` | src/App.jsx:276-284 | an element is in a key's group exactly when it carries that key |
| `Order.ByProduct` | src/App.jsx:276-284 | each product's variations are exactly those with its id, in sheet order |
| `Order.Label` | src/App.jsx:291 | a heading is never empty, and it is the type itself when the type is set |
| `Order.TiposVariacao` | src/App.jsx:286-296 | without an active product there are no headings; otherwise each heading groups exactly that product's variations under the heading |
| `Order.Put` | src/App.jsx:311 | spreading a new value sets that type to it, leaves every other type as it was, keeps types distinct and adds at most one entry |
| `Order.HandleChoose` | src/App.jsx:310-312 | choosing the current choice clears it, choosing anything else selects it, and other types are untouched |
| `Order.ChooseTwice` | src/App.jsx:311 | choosing the same name twice leaves that name chosen when it was chosen before, and clears the type otherwise, a different earlier choice included |
| `Order.ChooseReplaces` | src/App.jsx:311 | choosing a second name replaces the first |
| `Order.PickedOfMembers` | src/App.jsx:303-304 | the picked variations are exactly those whose raw type holds their name |
| `Order.ExtrasArePicked` | src/App.jsx:302-306 | the extras are the sum over exactly the picked variations |
| `Order.PrecoComVariacoes` | src/App.jsx:298-308 | the price as written is 0 without a product, and the effective price when nothing is chosen |
| `Order.PriceExample` | src/App.jsx:298-308 | a promotion of 15.00 with a chosen extra of 3.00 costs 18.00 |
| `Order.UntypedExtraIgnored` | src/App.jsx:291-304 | as written, clicking an untyped variation leaves the price at the effective price: its extra is lost |
| `Order.PriceWithChoices` | src/App.jsx:298-308 | the corrected price is 0 without a product, and the effective price when nothing is chosen |
| `Order.ClickedExtraCounted` | src/App.jsx:291-311 | with the correction, clicking any variation adds its extra, typed or not |
| `Order.TypedAgree` | src/App.jsx:302-306 | for typed variations the price as written and the corrected price agree |
| `Order.ModalTotal` | src/App.jsx:518 | the dialog total is the effective price plus the extras of exactly the variations picked under their raw type, or the effective price when that sum is 0 |
| `Order.DialogIgnoresUntypedExtra` | src/App.jsx:291-304 | as written, the dialog total after clicking an untyped variation is the product's own price |
| `Order.IntendedModalTotal` | src/App.jsx:518 | the corrected dialog total is the corrected price when that is non-zero, and the effective price when nothing is chosen |
| `Order.ClickedExtraShown` | src/App.jsx:291-311 | with the correction, the dialog total after clicking any variation includes its extra |
| `Order.ChosenMembers` | src/App.jsx:319 | a type and name are listed exactly when the selection holds that non-empty name for that type |
| `Order.ChosenAppend` | src/App.jsx:319 | listing works entry by entry, so the listed choices keep the selection's order |
| `Order.DetailsJoined` | src/App.jsx:321 | every listed choice appears as "type: name" in the joined details |
| `Order.OrderText` | src/App.jsx:316-324 | the message names the product and carries its formatted effective price |
| `Order.NoChoiceNoLine` | src/App.jsx:317-324 | without a chosen variation the message is only the product line and the notes prompt |
| `Order.EveryChoiceNamed` | src/App.jsx:316-324 | for a product with variations, every type holding a non-empty name appears in the message as "type: name" |
| `Order.OrderUrl` | src/App.jsx:315-325 | the link is the wa.me address, then exactly the number's digits, then "?text=", then the encoded text |
| `Order.DigitNumberKept` | src/App.jsx:315 | a number written in digits only goes into the link unchanged |
| `SheetHook.NormalizeSheetName` | src/hooks/useMenuData.js:3-11 | a sheet name routes to one of the four canonical names or stays itself, and "" stays "" |
| `SheetHook.ProductsFirst` | src/hooks/useMenuData.js:5-6 | a name that mentions "produto" anywhere is the products sheet, whatever else it mentions and whatever white space surrounds it |
| `SheetHook.VariationsSecond` | src/hooks/useMenuData.js:5-7 | a name that mentions "variac" and not "produto" is the variations sheet |
| `SheetHook.NeighbourhoodsThird` | src/hooks/useMenuData.js:5-8 | a name that mentions "bairro" and neither "produto" nor "variac" is the neighbourhoods sheet |
| `SheetHook.ConfigLast` | src/hooks/useMenuData.js:5-9 | a name that mentions "config" and none of the other three words is the configuration sheet |
| `SheetHook.NoFamilyKept` | src/hooks/useMenuData.js:5-10 | a name that mentions none of the four words is returned as it was |
| `SheetHook.MentionedInMiddle` | src/hooks/useMenuData.js:5 | a lower-case word written between any two texts is still there once the whole is trimmed and lower-cased |
| `SheetHook.MentionedAfterTrim` | src/hooks/useMenuData.js:5 | a lower-case word written anywhere in a name is still there once the name is trimmed and lower-cased |
| `SheetHook.CanonicalFixed` | src/hooks/useMenuData.js:3-11 | each of the four canonical sheet names routes to itself |
| `SheetHook.NormalizeIdempotent` | src/hooks/useMenuData.js:3-11 | normalising a normalised name changes nothing |
| `SheetHook.SheetRows` | src/hooks/useMenuData.js:18-23 | with no sheet routed to a name, that name has no rows |
| `SheetHook.SheetRowsLast` | src/hooks/useMenuData.js:19-21 | when several sheets route to one name, the last one wins |
| `SheetHook.MissingFlagDropped` | src/hooks/useMenuData.js:24-25 | a product without an active column is dropped |
| `SheetHook.ToProduct` | src/hooks/useMenuData.js:26-36 | the order is never 0 (9999 stands in); prices and counts are their `Number` or the default; a falsy promotion is none |
| `SheetHook.ActiveProducts` | src/hooks/useMenuData.js:23-36 | the products are exactly the typed active rows |
| `SheetHook.ProductList` | src/hooks/useMenuData.js:23-37 | the product list permutes the active products into ascending order, with ties by descending popularity |
| `SheetHook.VariationsColumns` | src/hooks/useMenuData.js:39-44 | each variation row gives its own variation, read from `tipo_variacao`, `nome_variacao`, `produto_id` and `preco_extra` only |
| `SheetHook.ByProduct` | src/hooks/useMenuData.js:46-50 | each id key's bucket is exactly the variations with that key, in order |
| `SheetHook.Attach` | src/hooks/useMenuData.js:70-73 | each product carries exactly the variations with its id, in order |
| `SheetHook.NoVariationsEmpty` | src/hooks/useMenuData.js:72 | a product whose id no variation names gets an empty list |
| `SheetHook.Collect` | src/hooks/useMenuData.js:52-56 | the collected keys are exactly the truthy keys of the rows |
| `SheetHook.CollectLastWins` | src/hooks/useMenuData.js:54-56 | a key's value is that of the last row naming it |
| `SheetHook.CaseSensitive` | src/hooks/useMenuData.js:55 | keys match exactly: "Brand_Name" does not set "brand_name" |
| `SheetHook.SettingOfRows` | src/hooks/useMenuData.js:52-67 | a setting is decided by the last row naming its key: that row's value as text when truthy, else the default |
| `SheetHook.SettingUnnamed` | src/hooks/useMenuData.js:59-67 | a key no row names takes its default |
| `SheetHook.Ids` | src/hooks/useMenuData.js:64-65 | the id list holds no 0 and is no longer than the pieces |
| `SheetHook.IdsMembers` | src/hooks/useMenuData.js:64-65 | an id is listed exactly when some piece reads as that non-zero number |
| `SheetHook.UnsetIdsEmpty` | src/hooks/useMenuData.js:64-65 | an unset list gives no ids |
| `SheetHook.IdList` | src/hooks/useMenuData.js:64-65 | the featured and promotion ids hold no 0, and are empty when the key is unset |
| `SheetHook.MakeConfig` | src/hooks/useMenuData.js:58-68 | without configuration rows every field is its literal default, and the id lists never hold 0 |
| `SheetHook.MakeConfigFromRow` | src/hooks/useMenuData.js:52-67 | each field takes the value of the last row naming its key when that value is truthy; the id lists read that value's pieces |
| `SheetHook.FetchMenu` | src/hooks/useMenuData.js:13-76 | the menu is the sorted product list with the variations attached and the configuration built from the routed config sheet; none has order 0, and an empty payload has no products |
| `SheetHook.FetchMenuItems` | src/hooks/useMenuData.js:46-73 | item i is product i of the sorted list, and carries exactly the variations whose id key is its own |
| `Card.Display` | src/components/ProductCard.jsx:24-31 | the base price is struck out exactly when there is a promotion, which is then positive and below it; otherwise the base price stands alone |
| `Card.OrderPrice` | src/components/ProductCard.jsx:2-6 | the message price never exceeds the base price and is a positive promotion or the base price |
| `Card.MessageMatchesDisplay` | src/components/ProductCard.jsx:6-31 | the message asks for the price the card shows |
| `Card.CardText` | src/components/ProductCard.jsx:6 | the message opens with the greeting, names the product between asterisks, and ends with the encoded price |
| `Card.NoDescriptionNoLine` | src/components/ProductCard.jsx:6 | without a description the message has no description part |
| `Card.CardUrl` | src/components/ProductCard.jsx:7 | the link is the wa.me address, then the number exactly as configured, then "?text=" and the card's message |
| `Card.PlusSignKept` | src/components/ProductCard.jsx:7 | a "+" in the number survives in the card's link but not in the page's order link |
| `Card.CardPrice` | src/App.jsx:552 | the page card shows the promotion when it is positive, else the base price |
| `Card.TemDesconto` | src/App.jsx:553 | the base price is struck out only beside a lower, positive promotion |
| `Card.DiscountAgrees` | src/App.jsx:552-553 | for a real discount, the page card, the page message and the standalone card all use the promotion |
| `Card.NoPromoAgrees` | src/App.jsx:552-553 | without a promotion, every path uses the base price and nothing is struck out |
| `Card.HigherPromoDiverges` | src/App.jsx:552-553 | a promotion above the base price is shown and charged by the page without a strike, while the standalone card keeps the base price |
| `Card.NegativePromoDiverges` | src/App.jsx:552 | with a negative promotion the page card shows the base price while the page message carries the negative one |

## Left out

- Network and lifecycle are not modelled. This covers `fetch`, the response check, JSON parsing, the `alive` guard, the loading and error states, and React's state and effects. Each operation is a pure function of the payload or of the state it reads.
- The `IntersectionObserver` is a signal (`Query.Signal`). The effect that installs it depends only on the ref object, so it runs once, during loading, when the sentinel is absent; in the code as written no "more" signal then ever arrives. Whether a later render re-runs it is React behaviour, and that is left out.
- The visible counter itself is unbounded. Only the `slice` clamps it, which `Query.Visible` states.
- DOM work is left out: the dark class on the root, the `--accent` property, the theme toggle cycle, images, the zoom modal and `BrandFooter` (`src/components/BrandFooter.jsx` is not part of this model).
- The number of neighbourhoods in the header and the footer's minimum order and delivery text are rendering only.
- Currency formatting (`toLocaleString` with `pt-BR`), `encodeURIComponent` and `localeCompare` with `pt-BR` are parameters, so their output is not modelled.
- `Number` on non-blank text is the parameter `parse`. Floating point, exponents and `Infinity` are not modelled; numbers are exact hundredths.
- `Order.TiposVariacao`: the page groups the dialog's headings in a plain object (`groups[t]`), so a type named after an inherited property such as "constructor", "toString" or "__proto__" finds a truthy value already there, and `push` on it throws while the dialog renders. The model groups such a type like any other name; it does not model the crash. The hook's own grouping keys on numeric product ids and is not affected.
- `Object.entries` lists integer-like keys first in ascending order. The selection (`Order.Chosen`) and the dialog's headings (`Order.TiposVariacao`) keep plain insertion order here, so a variation type such as "1" is not moved to the front of either.
- `Catalog.NormProduto` renders the text fields (`nome`, `categoria`, …) to strings when it normalises. The page keeps the raw cell and only stringifies where it compares or prints. A numeric category therefore compares as its text here. The search (`stringIncludes`) reads `String(hay || "")`, so a name or description cell holding `0` or `false` is searched as "" on the page, while the model searches its text "0" or "false"; a query "0" or "false" then finds such a product here and not on the page.
- `SheetHook.ToProduct`: a promotional price that is NaN is modelled as none, the same as `null`. Its only reader treats both as falsy.
- `Text.ToLower` lower-cases ASCII letters only. `Text.Trim` treats the ASCII white space and the no-break space as blank, not the whole Unicode space class.
- `SheetHook.FetchMenu`: the iteration order of the payload's keys is given as a sequence. JavaScript's integer-like-keys-first order is not applied to it.
- `Order.OrderUrl` and `Card.CardUrl` build the link. Opening the window is I/O and is left out.
- The page's message uses `promo || base` without the chosen extras, while the dialog shows `precoComVariacoes` (the extras picked under their raw type, so an untyped variation's extra is missing there too). The model states both, in `Order.OrderText` and `Order.ModalTotal`, without reconciling them.

## Findings

| source | as written | input that shows it | evidently intended | confidence | as-written member | corrected member |
|---|---|---|---|---|---|---|
| src/App.jsx:291-304 | A variation with an empty type is listed under the heading "Opção", so clicking it stores the choice under "Opção". The price, and with it the dialog's total, then looks the choice up under the raw type "". | A product with one variation: type "", name "Grande", extra 3.00, at an effective price of 15.00. Clicking it shows it as selected, but the price and the total stay at 15.00. | The extra of a variation shown as selected is added, whatever its type. | medium, not executed | `Order.UntypedExtraIgnored`, `Order.DialogIgnoresUntypedExtra` | `Order.ClickedExtraCounted`, `Order.ClickedExtraShown` |

=== FILE: appconfig.dfy ===
/** The page's effective configuration (src/App.jsx): the defaults overlaid
    with the first configuration row whose key matches ignoring case, the
    theme taken from the rows, and the comma-separated id lists read as sets. */
module AppConfig {
  import Text
  import opened Catalog

  /** The built-in settings, in declaration order. */
  const Defaults: seq<(string, string)> := [
    ("brand_name", "Seu Restaurante"),
    ("whatsapp_number", "5599999999999"),
    ("accent_color", "#EA1D2C"),
    ("logo_url", ""),
    ("dark_mode_default", "auto"),
    ("seo_description", "Cardápio digital rápido e prático."),
    ("seo_keywords", "cardápio, delivery, restaurante"),
    ("featured_ids", ""),
    ("promocoes_ids", ""),
    ("min_order", ""),
    ("delivery_open", "true")
  ]

  function DefaultKeys(): (ks: seq<string>)
    ensures |ks| == |Defaults|
    ensures forall i :: 0 <= i < |ks| ==> ks[i] == Defaults[i].0
  {
    seq(|Defaults|, i requires 0 <= i < |Defaults| => Defaults[i].0)
  }

  /** `DEFAULT_CONFIG` as a map. */
  function DefaultConfig(): (m: map<string, string>)
    ensures forall i :: 0 <= i < |Defaults| ==> Defaults[i].0 in m && m[Defaults[i].0] == Defaults[i].1
  {
    map i | 0 <= i < |Defaults| :: Defaults[i].0 := Defaults[i].1
  }

  /** Every default key is already lower case, so a key matches at most one of them. */
  lemma DefaultKeysLower()
    ensures forall i :: 0 <= i < |Defaults| ==> Text.ToLower(Defaults[i].0) == Defaults[i].0
  {
    forall i | 0 <= i < |Defaults|
      ensures Text.ToLower(Defaults[i].0) == Defaults[i].0
    {
      Text.NoCapitalsLower(Defaults[i].0);
    }
  }

  lemma DefaultKeyLower(i: nat)
    requires i < |Defaults|
    ensures Text.ToLower(Defaults[i].0) == Defaults[i].0
  {
    DefaultKeysLower();
  }

  /** Row `c` matches `key` ignoring case. */
  predicate KeyMatches(c: ConfigRow, key: string) {
    Text.ToLower(c.chave) == Text.ToLower(key)
  }

  /** `getConfigValue`: the value of the first row whose key matches, else the fallback. */
  function GetConfigValue(configs: seq<ConfigRow>, key: string, fallback: string): (v: string)
    ensures (forall i :: 0 <= i < |configs| ==> !KeyMatches(configs[i], key)) ==> v == fallback
    ensures forall i :: 0 <= i < |configs| && KeyMatches(configs[i], key)
                     && (forall j :: 0 <= j < i ==> !KeyMatches(configs[j], key))
                     ==> v == configs[i].valor
  {
    if configs == [] then fallback
    else if KeyMatches(configs[0], key) then configs[0].valor
    else GetConfigValue(configs[1..], key, fallback)
  }

  /** One step of the overlay loop: the looked-up value replaces the current
      one unless it is empty. */
  function OverlayKey(obj: map<string, string>, configs: seq<ConfigRow>, k: string): map<string, string>
    requires k in obj
  {
    var v := GetConfigValue(configs, k, obj[k]);
    if v != "" then obj[k := v] else obj
  }

  /** The overlay loop over `keys`, in order. */
  function Overlay(obj: map<string, string>, configs: seq<ConfigRow>, keys: seq<string>): (r: map<string, string>)
    requires forall i :: 0 <= i < |keys| ==> keys[i] in obj
    ensures r.Keys == obj.Keys
    ensures forall k :: k in obj && k !in keys ==> r[k] == obj[k]
  {
    if keys == [] then obj
    else Overlay(OverlayKey(obj, configs, keys[0]), configs, keys[1..])
  }

  /** The value the overlay settles on for one key. */
  function Resolved(configs: seq<ConfigRow>, k: string, default: string): string {
    var v := GetConfigValue(configs, k, default);
    if v != "" then v else default
  }

  /** With distinct keys, each key is visited once and looked up against its
      starting value. */
  lemma {:induction false} OverlayValues(obj: map<string, string>, configs: seq<ConfigRow>, keys: seq<string>)
    requires forall i :: 0 <= i < |keys| ==> keys[i] in obj
    requires forall i, j :: 0 <= i < j < |keys| ==> keys[i] != keys[j]
    ensures forall k :: k in keys ==> Overlay(obj, configs, keys)[k] == Resolved(configs, k, obj[k])
  {
    if keys != [] {
      var obj' := OverlayKey(obj, configs, keys[0]);
      OverlayValues(obj', configs, keys[1..]);
      forall k | k in keys
        ensures Overlay(obj, configs, keys)[k] == Resolved(configs, k, obj[k])
      {
        if k == keys[0] {
          assert k !in keys[1..];
        } else {
          assert k in keys[1..];
          assert obj'[k] == obj[k];
        }
      }
    }
  }

  /** The `config` memo: every default key, overlaid from the rows. */
  function EffectiveConfig(configs: seq<ConfigRow>): (cfg: map<string, string>)
    ensures cfg.Keys == DefaultConfig().Keys
    ensures forall i :: 0 <= i < |Defaults| ==>
      cfg[Defaults[i].0] == Resolved(configs, Defaults[i].0, Defaults[i].1)
  {
    var ks := DefaultKeys();
    assert forall i :: 0 <= i < |ks| ==> ks[i] in DefaultConfig();
    OverlayValues(DefaultConfig(), configs, ks);
    assert forall i :: 0 <= i < |Defaults| ==> Defaults[i].0 in ks;
    Overlay(DefaultConfig(), configs, ks)
  }

  /** Without configuration rows the effective configuration is the default. */
  lemma NoRowsIsDefault()
    ensures EffectiveConfig([]) == DefaultConfig()
  {
    SameOnDefaults(EffectiveConfig([]), DefaultConfig());
  }

  /** Looking a key up in a single row. */
  lemma GetOne(row: ConfigRow, k: string, d: string)
    ensures GetConfigValue([row], k, d) == if KeyMatches(row, k) then row.valor else d
  {
    assert [row][1..] == [];
  }

  /** Default keys are pairwise distinct. */
  lemma DefaultKeysDistinct(i: nat, j: nat)
    requires i < |Defaults| && j < |Defaults| && Defaults[i].0 == Defaults[j].0
    ensures i == j
  {
  }

  /** The effective value of the j-th default key under a single row. */
  lemma OneRowAt(row: ConfigRow, j: nat)
    requires j < |Defaults|
    ensures EffectiveConfig([row])[Defaults[j].0]
            == if KeyMatches(row, Defaults[j].0) && row.valor != "" then row.valor else Defaults[j].1
  {
    GetOne(row, Defaults[j].0, Defaults[j].1);
  }

  /** One row naming the i-th default key (in any case) with a non-empty value
      changes that key and nothing else. */
  lemma {:induction false} OneRowChangesOneKey(i: nat, chave: string, valor: string)
    requires i < |Defaults|
    requires Text.ToLower(chave) == Defaults[i].0 && valor != ""
    ensures EffectiveConfig([ConfigRow(chave, valor)]) == DefaultConfig()[Defaults[i].0 := valor]
  {
    var row := ConfigRow(chave, valor);
    OneRowKeys(i, row);
    UpdateKeys(i, valor);
    SameOnDefaults(EffectiveConfig([row]), DefaultConfig()[Defaults[i].0 := valor]);
  }

  lemma UpdateKeys(i: nat, v: string)
    requires i < |Defaults|
    ensures (DefaultConfig()[Defaults[i].0 := v]).Keys == DefaultConfig().Keys
  {
  }

  lemma OneRowKeys(i: nat, row: ConfigRow)
    requires i < |Defaults|
    requires Text.ToLower(row.chave) == Defaults[i].0 && row.valor != ""
    ensures forall j :: 0 <= j < |Defaults| ==>
      EffectiveConfig([row])[Defaults[j].0] == DefaultConfig()[Defaults[i].0 := row.valor][Defaults[j].0]
  {
    forall j | 0 <= j < |Defaults|
      ensures EffectiveConfig([row])[Defaults[j].0] == DefaultConfig()[Defaults[i].0 := row.valor][Defaults[j].0]
    {
      OneRowKey(i, row, j);
    }
  }

  lemma OneRowKey(i: nat, row: ConfigRow, j: nat)
    requires i < |Defaults| && j < |Defaults|
    requires Text.ToLower(row.chave) == Defaults[i].0 && row.valor != ""
    ensures EffectiveConfig([row])[Defaults[j].0] == DefaultConfig()[Defaults[i].0 := row.valor][Defaults[j].0]
  {
    var want := DefaultConfig()[Defaults[i].0 := row.valor];
    OneRowAt(row, j);
    DefaultKeyLower(i);
    DefaultKeyLower(j);
    if KeyMatches(row, Defaults[j].0) {
      DefaultKeysDistinct(i, j);
    } else {
      assert Defaults[j].0 != Defaults[i].0;
      assert want[Defaults[j].0] == DefaultConfig()[Defaults[j].0];
    }
  }

  /** Two maps over the default keys that agree on every default key are equal. */
  lemma SameOnDefaults(a: map<string, string>, b: map<string, string>)
    requires a.Keys == DefaultConfig().Keys && b.Keys == DefaultConfig().Keys
    requires forall j :: 0 <= j < |Defaults| ==> a[Defaults[j].0] == b[Defaults[j].0]
    ensures a == b
  {
    forall k | k in a
      ensures a[k] == b[k]
    {
      var j :| 0 <= j < |Defaults| && Defaults[j].0 == k;
    }
  }

  /** A row with an empty value keeps the default, even when it is the only match. */
  lemma EmptyValueKeepsDefault(chave: string)
    ensures EffectiveConfig([ConfigRow(chave, "")]) == DefaultConfig()
  {
    var row := ConfigRow(chave, "");
    forall j | 0 <= j < |Defaults|
      ensures EffectiveConfig([row])[Defaults[j].0] == DefaultConfig()[Defaults[j].0]
    {
      OneRowAt(row, j);
    }
    SameOnDefaults(EffectiveConfig([row]), DefaultConfig());
  }

  /** The first matching row wins over later ones. */
  lemma FirstRowWins(first: ConfigRow, later: seq<ConfigRow>, i: nat)
    requires i < |Defaults| && KeyMatches(first, Defaults[i].0) && first.valor != ""
    ensures EffectiveConfig([first] + later)[Defaults[i].0] == first.valor
  {
  }

  /** The theme read from the rows at load time: one of the three modes,
      "auto" when the row is missing or holds anything else. */
  function ResolveTheme(configs: seq<ConfigRow>): (mode: string)
    ensures mode == "light" || mode == "dark" || mode == "auto"
    ensures mode != "auto" ==> GetConfigValue(configs, "dark_mode_default", "auto") == mode
    ensures var t := GetConfigValue(configs, "dark_mode_default", "auto");
      t == "light" || t == "dark" || t == "auto" ==> mode == t
  {
    var t := GetConfigValue(configs, "dark_mode_default", "auto");
    if t == "light" || t == "dark" || t == "auto" then t else "auto"
  }

  /** `featuredSet` / `promoSet`: the trimmed, non-empty pieces of a
      comma-separated list. */
  function IdSet(list: string): (ids: set<string>)
    ensures "" !in ids
    ensures forall id :: id in ids ==> Text.Trim(id) == id
  {
    set piece | piece in Text.Split(list, ',') && Text.Trim(piece) != "" :: TrimTwice(piece); Text.Trim(piece)
  }

  lemma TrimTwice(s: string)
    ensures Text.Trim(Text.Trim(s)) == Text.Trim(s)
  {
    Text.TrimKeeps(Text.Trim(s));
  }

  /** Splitting a list joined by the separator splits each part. */
  lemma {:induction false} SplitConcat(a: string, b: string, sep: char)
    ensures Text.Split(a + [sep] + b, sep) == Text.Split(a, sep) + Text.Split(b, sep)
  {
    if a == [] {
      assert a + [sep] + b == [sep] + b;
      SplitCons(sep, b, sep);
    } else {
      SplitConcat(a[1..], b, sep);
      var t := a[1..] + [sep] + b;
      assert a + [sep] + b == [a[0]] + t;
      assert a == [a[0]] + a[1..];
      SplitCons(a[0], t, sep);
      SplitCons(a[0], a[1..], sep);
      Glue(a[0] == sep, [a[0]], Text.Split(a[1..], sep), Text.Split(b, sep));
    }
  }

  /** Splitting after one more character. */
  lemma SplitCons(c: char, t: string, sep: char)
    ensures var rest := Text.Split(t, sep);
      Text.Split([c] + t, sep) == if c == sep then [""] + rest else [[c] + rest[0]] + rest[1..]
  {
    assert ([c] + t)[1..] == t;
  }

  /** The first character's step commutes with appending more pieces. */
  lemma Glue(cut: bool, head: string, rest: seq<string>, tail: seq<string>)
    requires |rest| >= 1
    ensures var whole := rest + tail;
      (if cut then [""] + whole else [head + whole[0]] + whole[1..])
      == (if cut then [""] + rest else [head + rest[0]] + rest[1..]) + tail
  {
    if !cut {
      assert (rest + tail)[0] == rest[0];
      assert (rest + tail)[1..] == rest[1..] + tail;
    }
  }

  /** The set of a joined list is the union of the sets of its parts. */
  lemma IdSetConcat(a: string, b: string)
    ensures IdSet(a + [','] + b) == IdSet(a) + IdSet(b)
  {
    SplitConcat(a, b, ',');
  }

  /** A single id with no comma and no surrounding space is read back as itself. */
  lemma {:induction false} IdSetSingle(id: string)
    requires id != "" && ',' !in id
    requires !Text.IsSpace(id[0]) && !Text.IsSpace(id[|id| - 1])
    ensures IdSet(id) == {id}
  {
    SplitNoSep(id);
    Text.TrimKeeps(id);
  }

  lemma {:induction false} SplitNoSep(s: string)
    requires ',' !in s
    ensures Text.Split(s, ',') == [s]
  {
    if s != [] {
      SplitNoSep(s[1..]);
      assert s == [s[0]] + s[1..];
    }
  }
}

=== FILE: card.dfy ===
/** The two product cards and the prices they show: the standalone card
    (src/components/ProductCard.jsx) over the data hook's products, and the
    storefront's own card (`CardProduto` in src/App.jsx) over the storefront's
    products. */
module Card {
  import Text
  import opened Wrappers
  import SheetHook
  import Catalog
  import Query
  import Order

  /** `hasPromo`: a promotional price that is set, positive and below the base price. */
  predicate HasPromo(p: SheetHook.Product) {
    p.precoPromo.Some? && p.precoPromo.value > 0 && p.precoPromo.value < p.precoBase
  }

  /** What the price row shows: one price, or a struck-out old price beside the new one. */
  datatype PriceDisplay = Plain(price: int) | Struck(was: int, now: int)

  /** The price row of the standalone card. */
  function Display(p: SheetHook.Product): (d: PriceDisplay)
    ensures d.Struck? <==> HasPromo(p)
    ensures d.Struck? ==> d.was == p.precoBase && 0 < d.now < d.was
    ensures d.Plain? ==> d.price == p.precoBase
  {
    if HasPromo(p) then Struck(p.precoBase, p.precoPromo.value) else Plain(p.precoBase)
  }

  /** The price the eye falls on: the only one, or the new one. */
  function Shown(d: PriceDisplay): int {
    match d
    case Plain(v) => v
    case Struck(_, v) => v
  }

  /** The price written into the card's order message. */
  function OrderPrice(p: SheetHook.Product): (v: int)
    ensures v <= p.precoBase
    ensures v == p.precoBase || (p.precoPromo == Some(v) && v > 0)
  {
    if HasPromo(p) then p.precoPromo.value else p.precoBase
  }

  /** The message asks for exactly the price the card shows. */
  lemma MessageMatchesDisplay(p: SheetHook.Product)
    ensures OrderPrice(p) == Shown(Display(p))
  {
  }

  const Interest: string := "Olá! Tenho interesse no "
  const ValueLabel: string := "%0aValor: "

  /** The card's message. Currency formatting is the parameter `money` and
      `encodeURIComponent` the parameter `encode`; the name is inserted as it
      is, between asterisks, and the line breaks are already written as `%0a`. */
  function CardText(p: SheetHook.Product, money: int -> string, encode: string -> string): (t: string)
    ensures |Interest| + |encode(money(OrderPrice(p)))| <= |t|
    ensures t[..|Interest|] == Interest
    ensures t[|t| - |encode(money(OrderPrice(p)))|..] == encode(money(OrderPrice(p)))
    ensures Text.Contains(t, "*" + p.nome + "*")
  {
    var desc := if p.descricao != "" then "- " + encode(p.descricao) else "";
    var price := encode(money(OrderPrice(p)));
    var star := "*" + p.nome + "*";
    var mid := "%0a" + desc + ValueLabel;
    var front := Interest + (star + mid);
    Text.ContainsFront(star, mid);
    Text.ContainsAfter(Interest, star + mid, star);
    Text.ContainsBefore(front, price, star);
    Text.PrefixKept(Interest, star + mid, price);
    front + price
  }

  /** Without a description the message has no description line at all. */
  lemma NoDescriptionNoLine(p: SheetHook.Product, money: int -> string, encode: string -> string)
    requires p.descricao == ""
    ensures CardText(p, money, encode) == Interest + ("*" + p.nome + "*" + ("%0a" + ValueLabel)) + encode(money(OrderPrice(p)))
  {
    assert "%0a" + "" == "%0a";
  }

  /** The card's link: the configured number is used exactly as given. */
  function CardUrl(whatsapp: string, p: SheetHook.Product, money: int -> string, encode: string -> string): (url: string)
    ensures 14 + |whatsapp| <= |url|
    ensures url[..14] == "https://wa.me/"
    ensures url[14..14 + |whatsapp|] == whatsapp
    ensures url[14 + |whatsapp|..] == "?text=" + CardText(p, money, encode)
    ensures Text.Contains(url, "?text=" + Interest)
  {
    var t := CardText(p, money, encode);
    var q := "?text=" + t;
    var url := "https://wa.me/" + (whatsapp + q);
    assert url[14..] == whatsapp + q;
    assert url[14 + |whatsapp|..] == (whatsapp + q)[|whatsapp|..];
    assert t == Interest + t[|Interest|..];
    Text.ContainsFrontPair("?text=", Interest, t[|Interest|..]);
    Text.ContainsAfter(whatsapp, q, "?text=" + Interest);
    Text.ContainsAfter("https://wa.me/", whatsapp + q, "?text=" + Interest);
    url
  }

  /** The storefront's order link strips a '+' from the number; the card keeps it. */
  lemma PlusSignKept(p: SheetHook.Product, money: int -> string, encode: string -> string)
    ensures CardUrl("+55", p, money, encode)[14] == '+'
    ensures Order.OrderUrl("+55", CardText(p, money, encode), encode)[14] != '+'
  {
    assert Text.DigitsOnly("+55") == "55" by {
      assert "+55"[1..] == "55";
      assert "55"[1..] == "5";
      assert "5"[1..] == "";
    }
  }

  /** `CardProduto`'s price: the promotional price when positive, else the base price. */
  function CardPrice(p: Catalog.Product): (v: int)
    ensures v == p.precoPromo || v == p.precoBase
    ensures p.precoPromo > 0 <==> v == p.precoPromo && v > 0
  {
    if p.precoPromo > 0 then p.precoPromo else p.precoBase
  }

  /** `temDesconto`: the base price is struck out beside the promotional one. */
  function TemDesconto(p: Catalog.Product): (b: bool)
    ensures b ==> CardPrice(p) == p.precoPromo && CardPrice(p) < p.precoBase
  {
    p.precoPromo > 0 && p.precoPromo < p.precoBase
  }

  /** A real discount: the storefront card, its order message and the
      standalone card all agree on the promotional price. */
  lemma DiscountAgrees(p: Catalog.Product, q: SheetHook.Product)
    requires 0 < p.precoPromo < p.precoBase
    requires q.precoBase == p.precoBase && q.precoPromo == Some(p.precoPromo)
    ensures TemDesconto(p) && HasPromo(q)
    ensures CardPrice(p) == Query.EffPrice(p) == OrderPrice(q) == p.precoPromo
  {
  }

  /** No promotion: every path uses the base price and nothing is struck out. */
  lemma NoPromoAgrees(p: Catalog.Product, q: SheetHook.Product)
    requires p.precoPromo == 0
    requires q.precoBase == p.precoBase && q.precoPromo.None?
    ensures !TemDesconto(p) && !HasPromo(q)
    ensures CardPrice(p) == Query.EffPrice(p) == OrderPrice(q) == p.precoBase
  {
  }

  /** A "promotion" above the base price: the storefront card shows and
      charges the higher price without a strike-through, while the standalone
      card ignores it and keeps the base price. */
  lemma HigherPromoDiverges(p: Catalog.Product, q: SheetHook.Product)
    requires 0 < p.precoBase < p.precoPromo
    requires q.precoBase == p.precoBase && q.precoPromo == Some(p.precoPromo)
    ensures CardPrice(p) == Query.EffPrice(p) == p.precoPromo
    ensures !TemDesconto(p)
    ensures OrderPrice(q) == p.precoBase != CardPrice(p)
  {
  }

  /** A negative promotional price: the storefront card shows the base price
      but its order message carries the negative one. */
  lemma NegativePromoDiverges(p: Catalog.Product)
    requires p.precoPromo < 0 <= p.precoBase
    ensures CardPrice(p) == p.precoBase
    ensures Query.EffPrice(p) == p.precoPromo != CardPrice(p)
  {
  }
}

=== FILE: catalog.dfy ===
/** The page's own normalisation of the fetched sheets (src/App.jsx): every
    field of a row is read from an ordered list of candidate column names,
    numbers go through `mapNumber`, and a product is dropped only when its
    active flag reads "false". */
module Catalog {
  import opened Wrappers
  import opened Cells
  import Text

  /** A normalised product. Text fields hold `String(...)` of the chosen cell;
      `ativo` keeps the raw cell the filter looked at. */
  datatype Product = Product(
    id: string,
    nome: string,
    descricao: string,
    categoria: string,
    subcategoria: string,
    precoBase: int,
    imagemUrl: string,
    ativo: Cell,
    ordem: int,
    popularidade: int,
    precoPromo: int)

  datatype Variation = Variation(produtoId: string, tipo: string, nome: string, precoExtra: int)

  datatype Bairro = Bairro(nome: string, taxa: int)

  datatype ConfigRow = ConfigRow(chave: string, valor: string)

  /** The payload: sheet name to its rows. */
  type Payload = map<string, seq<Row>>

  const ProdutosSheets: seq<string> := ["Produtos", "produtos", "ProdutosAtivos", "ProdutosSheet", "ProdutosData"]
  const VariacoesSheets: seq<string> := ["Variacoes", "variacoes"]
  const BairrosSheets: seq<string> := ["Bairros", "bairros"]
  const ConfigSheets: seq<string> := ["Config", "config", "Configuracoes"]

  /** `data.A || data.B || ... || []`: the rows of the first sheet name
      present in the payload. */
  function Table(data: Payload, names: seq<string>): (rows: seq<Row>)
    ensures (forall i :: 0 <= i < |names| ==> names[i] !in data) ==> rows == []
    ensures forall i :: 0 <= i < |names| && names[i] in data
                     && (forall j :: 0 <= j < i ==> names[j] !in data)
                     ==> rows == data[names[i]]
  {
    if names == [] then []
    else if names[0] in data then data[names[0]]
    else Table(data, names[1..])
  }

  // Candidate columns per field, in the order they are tried.
  const IdKeys: seq<string> := ["id", "ID", "Id", "codigo", "code"]
  const NomeKeys: seq<string> := ["nome", "Nome", "titulo", "title"]
  const DescricaoKeys: seq<string> := ["descricao", "Descricao", "desc"]
  const CategoriaKeys: seq<string> := ["categoria", "Categoria"]
  const SubcategoriaKeys: seq<string> := ["subcategoria", "Subcategoria"]
  const PrecoBaseKeys: seq<string> := ["preco_base", "preco", "preço", "precoBase", "valor"]
  const ImagemKeys: seq<string> := ["imagem_url", "imagem", "foto"]
  const AtivoKeys: seq<string> := ["ativo", "Ativo", "status"]
  const OrdemKeys: seq<string> := ["ordem", "rank", "posicao"]
  const PopularidadeKeys: seq<string> := ["popularidade", "vendidos", "sales"]
  const PrecoPromoKeys: seq<string> := ["preco_promo", "promocao", "precoPromocional"]

  const ProdutoIdKeys: seq<string> := ["produto_id", "ProdutoID", "id_produto", "pid"]
  const TipoKeys: seq<string> := ["tipo_variacao", "Tipo", "tipo"]
  const NomeVariacaoKeys: seq<string> := ["nome_variacao", "Nome", "nome"]
  const ExtraKeys: seq<string> := ["preco_extra", "extra", "preco"]

  const BairroKeys: seq<string> := ["bairros", "nome"]
  const TaxaKeys: seq<string> := ["taxa", "tax", "valor"]

  const ChaveKeys: seq<string> := ["chave", "key", "Config"]
  const ValorKeys: seq<string> := ["valor", "value", "Val"]

  /** The `ordem` given to a product without one. */
  const DefaultOrdem: int := 9999 * Scale

  /** A text field: the first present candidate, or "". */
  function Field(row: Row, keys: seq<string>): string {
    ToText(Coalesce(row, keys, Txt("")))
  }

  /** A numeric field: `mapNumber` of the first present candidate or the default. */
  function NumField(row: Row, keys: seq<string>, default: int, parse: string -> Option<int>): int {
    MapNumber(Coalesce(row, keys, Num(default)), parse)
  }

  /** The cell the active filter looks at; `true` when no candidate is present. */
  function AtivoCell(row: Row): Cell {
    Coalesce(row, AtivoKeys, Flag(true))
  }

  /** The page's active policy: anything but "false", ignoring case. */
  predicate Active(ativo: Cell) {
    Text.ToLower(ToText(ativo)) != "false"
  }

  /** One row of the products sheet as the page normalises it. */
  function NormProduto(row: Row, parse: string -> Option<int>): Product
  {
    Product(
      Field(row, IdKeys),
      Field(row, NomeKeys),
      Field(row, DescricaoKeys),
      Field(row, CategoriaKeys),
      Field(row, SubcategoriaKeys),
      NumField(row, PrecoBaseKeys, 0, parse),
      Field(row, ImagemKeys),
      AtivoCell(row),
      NumField(row, OrdemKeys, DefaultOrdem, parse),
      NumField(row, PopularidadeKeys, 0, parse),
      NumField(row, PrecoPromoKeys, 0, parse))
  }

  /** The fallbacks of the normalisation: a product without an active flag is
      active, without a name is nameless, without an order sorts at 9999 and
      without a promotional price has none. */
  lemma NormProdutoDefaults(row: Row, parse: string -> Option<int>)
    ensures (forall i :: 0 <= i < |AtivoKeys| ==> Nullish(Get(row, AtivoKeys[i]))) ==> NormProduto(row, parse).ativo == Flag(true)
    ensures (forall i :: 0 <= i < |NomeKeys| ==> Nullish(Get(row, NomeKeys[i]))) ==> NormProduto(row, parse).nome == ""
    ensures (forall i :: 0 <= i < |OrdemKeys| ==> Nullish(Get(row, OrdemKeys[i]))) ==> NormProduto(row, parse).ordem == DefaultOrdem
    ensures (forall i :: 0 <= i < |PrecoPromoKeys| ==> Nullish(Get(row, PrecoPromoKeys[i]))) ==> NormProduto(row, parse).precoPromo == 0
  {
  }

  /** The first candidate column wins: a text `id` is the id and a numeric
      `preco_base` is the base price, whatever the other candidates hold. */
  lemma NormProdutoFirstColumn(row: Row, parse: string -> Option<int>)
    ensures Get(row, "id").Txt? ==> NormProduto(row, parse).id == Get(row, "id").s
    ensures Get(row, "preco_base").Num? ==> NormProduto(row, parse).precoBase == Get(row, "preco_base").n
  {
  }

  /** Whether the page keeps the product normalised from `row`. */
  predicate Kept(row: Row) {
    Active(AtivoCell(row))
  }

  /** Map the kept elements, in order: `xs.map(f).filter(...)` where the
      filter only looks at what `keep` looks at. */
  function KeepMap<A, B>(xs: seq<A>, keep: A -> bool, f: A -> B): (ys: seq<B>)
    ensures |ys| <= |xs|
  {
    if xs == [] then []
    else if keep(xs[0]) then [f(xs[0])] + KeepMap(xs[1..], keep, f)
    else KeepMap(xs[1..], keep, f)
  }

  /** The output holds exactly the images of the kept elements. */
  lemma {:induction false} KeepMapMembers<A, B>(xs: seq<A>, keep: A -> bool, f: A -> B)
    ensures forall x :: x in xs && keep(x) ==> f(x) in KeepMap(xs, keep, f)
    ensures forall y :: y in KeepMap(xs, keep, f) ==> exists x :: x in xs && keep(x) && y == f(x)
  {
    if xs != [] {
      KeepMapMembers(xs[1..], keep, f);
      assert forall x :: x in xs ==> x == xs[0] || x in xs[1..];
    }
  }

  /** Keeping and mapping works element by element: it distributes over concatenation. */
  lemma {:induction false} KeepMapAppend<A, B>(a: seq<A>, b: seq<A>, keep: A -> bool, f: A -> B)
    ensures KeepMap(a + b, keep, f) == KeepMap(a, keep, f) + KeepMap(b, keep, f)
  {
    if a == [] {
      assert a + b == b;
    } else {
      assert (a + b)[0] == a[0];
      assert (a + b)[1..] == a[1..] + b;
      KeepMapAppend(a[1..], b, keep, f);
    }
  }

  /** `normProdutos`: map every row, then keep the active ones, in order. */
  function NormProdutos(rows: seq<Row>, parse: string -> Option<int>): (ps: seq<Product>)
    ensures |ps| <= |rows|
  {
    KeepMap(rows, Kept, row => NormProduto(row, parse))
  }

  /** The output holds exactly the normalised forms of the kept rows, and
      every product in it is active. */
  lemma NormProdutosMembers(rows: seq<Row>, parse: string -> Option<int>)
    ensures forall row :: row in rows && Kept(row) ==> NormProduto(row, parse) in NormProdutos(rows, parse)
    ensures forall p :: p in NormProdutos(rows, parse) ==> exists row :: row in rows && Kept(row) && p == NormProduto(row, parse)
    ensures forall p :: p in NormProdutos(rows, parse) ==> Active(p.ativo)
  {
    KeepMapMembers(rows, Kept, row => NormProduto(row, parse));
  }

  /** Normalisation works row by row: it distributes over concatenation. */
  lemma NormProdutosAppend(a: seq<Row>, b: seq<Row>, parse: string -> Option<int>)
    ensures NormProdutos(a + b, parse) == NormProdutos(a, parse) + NormProdutos(b, parse)
  {
    KeepMapAppend(a, b, Kept, row => NormProduto(row, parse));
  }

  /** A single row is dropped exactly when its flag reads "false", in any case. */
  lemma DroppedIff(row: Row, parse: string -> Option<int>)
    ensures NormProdutos([row], parse) == [] <==> Text.ToLower(ToText(AtivoCell(row))) == "false"
  {
    assert [row][1..] == [];
  }

  /** A row with none of the flag columns is kept. */
  lemma MissingFlagKept(row: Row, parse: string -> Option<int>)
    requires forall i :: 0 <= i < |AtivoKeys| ==> Nullish(Get(row, AtivoKeys[i]))
    ensures NormProdutos([row], parse) == [NormProduto(row, parse)]
  {
    assert AtivoCell(row) == Flag(true);
    TrueActive();
    assert [row][1..] == [];
  }

  lemma TrueActive()
    ensures Active(Flag(true))
  {
    Text.NoCapitalsLower("true");
  }

  /** A number in the flag column never reads "false", so it keeps the row. */
  lemma NumericFlagKept(n: int)
    ensures Active(Num(n))
  {
    var t := Text.ToLower(CentsText(n));
    assert t[0] == Text.LowerChar(CentsText(n)[0]);
    assert "false"[0] == 'f';
  }

  function NormVariacao(row: Row, parse: string -> Option<int>): (v: Variation)
    ensures v.produtoId == Field(row, ProdutoIdKeys)
    ensures v.tipo == Field(row, TipoKeys) && v.nome == Field(row, NomeVariacaoKeys)
  {
    Variation(
      Field(row, ProdutoIdKeys),
      Field(row, TipoKeys),
      Field(row, NomeVariacaoKeys),
      NumField(row, ExtraKeys, 0, parse))
  }

  /** `normVariacoes`: one variation per row, nothing dropped. */
  function NormVariacoes(rows: seq<Row>, parse: string -> Option<int>): (vs: seq<Variation>)
    ensures |vs| == |rows|
    ensures forall i :: 0 <= i < |rows| ==> vs[i] == NormVariacao(rows[i], parse)
  {
    seq(|rows|, i requires 0 <= i < |rows| => NormVariacao(rows[i], parse))
  }

  /** Each row gives its own variation, read column by column: a text
      `produto_id` or `tipo_variacao` is used as it is, a numeric
      `preco_extra` is the extra, a row with none of the type columns has the
      empty type and one with none of the extra columns adds nothing. */
  lemma NormVariacoesColumns(rows: seq<Row>, parse: string -> Option<int>, i: nat)
    requires i < |rows|
    ensures var v := NormVariacoes(rows, parse)[i]; var row := rows[i];
      (Get(row, "produto_id").Txt? ==> v.produtoId == Get(row, "produto_id").s)
      && (Get(row, "tipo_variacao").Txt? ==> v.tipo == Get(row, "tipo_variacao").s)
      && ((forall k :: 0 <= k < |TipoKeys| ==> Nullish(Get(row, TipoKeys[k]))) ==> v.tipo == "")
      && (Get(row, "preco_extra").Num? ==> v.precoExtra == Get(row, "preco_extra").n)
      && ((forall k :: 0 <= k < |ExtraKeys| ==> Nullish(Get(row, ExtraKeys[k]))) ==> v.precoExtra == 0)
  {
  }

  /** `normBairros`: one neighbourhood per row. */
  function NormBairros(rows: seq<Row>, parse: string -> Option<int>): (bs: seq<Bairro>)
    ensures |bs| == |rows|
    ensures forall i :: 0 <= i < |rows| ==>
      bs[i].nome == Field(rows[i], BairroKeys) && bs[i].taxa == NumField(rows[i], TaxaKeys, 0, parse)
  {
    seq(|rows|, i requires 0 <= i < |rows| => Bairro(Field(rows[i], BairroKeys), NumField(rows[i], TaxaKeys, 0, parse)))
  }

  /** Each row gives its own neighbourhood: a text `bairros` column is the
      name and a numeric `taxa` the fee; without any of the name columns the
      name is empty and without any of the fee columns the fee is 0. */
  lemma NormBairrosColumns(rows: seq<Row>, parse: string -> Option<int>, i: nat)
    requires i < |rows|
    ensures var b := NormBairros(rows, parse)[i]; var row := rows[i];
      (Get(row, "bairros").Txt? ==> b.nome == Get(row, "bairros").s)
      && ((forall k :: 0 <= k < |BairroKeys| ==> Nullish(Get(row, BairroKeys[k]))) ==> b.nome == "")
      && (Get(row, "taxa").Num? ==> b.taxa == Get(row, "taxa").n)
      && ((forall k :: 0 <= k < |TaxaKeys| ==> Nullish(Get(row, TaxaKeys[k]))) ==> b.taxa == 0)
  {
  }

  /** `normConfigs`: one key/value pair per row, as the text lookups read them. */
  function NormConfigs(rows: seq<Row>): (cs: seq<ConfigRow>)
    ensures |cs| == |rows|
    ensures forall i :: 0 <= i < |rows| ==>
      cs[i].chave == Field(rows[i], ChaveKeys) && cs[i].valor == Field(rows[i], ValorKeys)
  {
    seq(|rows|, i requires 0 <= i < |rows| => ConfigRow(Field(rows[i], ChaveKeys), Field(rows[i], ValorKeys)))
  }

  /** Each row gives its own pair: text `chave` and `valor` columns are used
      as they are, and a row with none of the key (or value) columns has the
      empty key (or value). */
  lemma NormConfigsColumns(rows: seq<Row>, i: nat)
    requires i < |rows|
    ensures var c := NormConfigs(rows)[i]; var row := rows[i];
      (Get(row, "chave").Txt? ==> c.chave == Get(row, "chave").s)
      && ((forall k :: 0 <= k < |ChaveKeys| ==> Nullish(Get(row, ChaveKeys[k]))) ==> c.chave == "")
      && (Get(row, "valor").Txt? ==> c.valor == Get(row, "valor").s)
      && ((forall k :: 0 <= k < |ValorKeys| ==> Nullish(Get(row, ValorKeys[k]))) ==> c.valor == "")
  {
  }
}

=== FILE: cells.dfy ===
/** Raw spreadsheet cells and the JavaScript coercions the storefront applies
    to them (`??`, `String(x)`, truthiness, `Number(x)` and the storefront's
    own `mapNumber`).

    Every JavaScript number is modelled as an `int` counting hundredths
    ("cents"): a price of 20.50 is 2050, an `ordem` of 3 is 300. Only
    equality, order, sums and truthiness of numbers are used by the
    storefront, so one fixed scale serves every field. */
module Cells {
  import opened Wrappers
  import Text

  /** Hundredths per unit of a JavaScript number. */
  const Scale: int := 100

  /** A value read from one column of a spreadsheet row. `Missing` is an
      absent property (`undefined`). */
  datatype Cell = Missing | Null | Txt(s: string) | Num(n: int) | Flag(b: bool)

  /** A spreadsheet row: column name to cell. */
  type Row = map<string, Cell>

  /** `row[key]`: an absent column reads as `undefined`. */
  function Get(row: Row, key: string): (c: Cell)
    ensures key !in row ==> c == Missing
  {
    if key in row then row[key] else Missing
  }

  /** The values the `??` operator skips. */
  predicate Nullish(c: Cell) {
    c == Missing || c == Null
  }

  /** `row[k0] ?? row[k1] ?? ... ?? default`: the first candidate column whose
      value is neither undefined nor null, else the default. */
  function Coalesce(row: Row, keys: seq<string>, default: Cell): (c: Cell)
    ensures (forall i :: 0 <= i < |keys| ==> Nullish(Get(row, keys[i]))) ==> c == default
    ensures forall i :: 0 <= i < |keys| && !Nullish(Get(row, keys[i]))
                     && (forall j :: 0 <= j < i ==> Nullish(Get(row, keys[j])))
                     ==> c == Get(row, keys[i])
    ensures !Nullish(default) ==> !Nullish(c)
  {
    if keys == [] then default
    else if !Nullish(Get(row, keys[0])) then Get(row, keys[0])
    else Coalesce(row, keys[1..], default)
  }

  /** JavaScript truthiness of a cell. */
  predicate Truthy(c: Cell) {
    match c
    case Missing => false
    case Null => false
    case Txt(s) => s != ""
    case Num(n) => n != 0
    case Flag(b) => b
  }

  /** The decimal digits of a natural number. */
  function NatText(n: nat): (r: string)
    ensures |r| >= 1
    ensures forall i :: 0 <= i < |r| ==> Text.IsDigit(r[i])
  {
    var d := [(n % 10 + '0' as int) as char];
    if n < 10 then d else NatText(n / 10) + d
  }

  /** `String(x)` for a number of hundredths: no fraction when it is whole,
      and no trailing zero in the fraction. */
  function CentsText(n: int): (r: string)
    ensures |r| >= 1 && (Text.IsDigit(r[0]) || r[0] == '-')
  {
    var m: nat := if n < 0 then -n else n;
    var whole := NatText(m / Scale);
    var f := m % Scale;
    var frac := if f == 0 then ""
                else if f % 10 == 0 then "." + NatText(f / 10)
                else "." + [(f / 10 + '0' as int) as char, (f % 10 + '0' as int) as char];
    (if n < 0 then "-" else "") + whole + frac
  }

  /** `String(x)`. */
  function ToText(c: Cell): string {
    match c
    case Missing => "undefined"
    case Null => "null"
    case Txt(s) => s
    case Num(n) => CentsText(n)
    case Flag(b) => if b then "true" else "false"
  }

  /** `x?.toString() || ''`: nullish and empty become the empty string. */
  function OptText(c: Cell): (r: string)
    ensures r == "" <==> Nullish(c) || c == Txt("")
    ensures r != "" ==> r == ToText(c)
  {
    if Nullish(c) then "" else ToText(c)
  }

  /** `Number(x)`. Parsing of non-blank text is the parameter `parse`
      (None stands for NaN); blank text is 0, `undefined` is NaN, `null` and
      `false` are 0, `true` is 1. */
  function JsNumber(c: Cell, parse: string -> Option<int>): (r: Option<int>)
    ensures c == Missing ==> r == None
    ensures c == Null ==> r == Some(0)
    ensures c.Num? ==> r == Some(c.n)
    ensures c.Flag? ==> r == Some(if c.b then Scale else 0)
  {
    match c
    case Missing => None
    case Null => Some(0)
    case Txt(s) => if Text.Trim(s) == "" then Some(0) else parse(s)
    case Num(n) => Some(n)
    case Flag(b) => Some(if b then Scale else 0)
  }

  /** `Number(x) || d`: NaN and 0 both give way to the default. */
  function NumberOr(c: Cell, parse: string -> Option<int>, d: int): (r: int)
    ensures r == d || (JsNumber(c, parse) == Some(r) && r != 0)
    ensures JsNumber(c, parse).Some? && JsNumber(c, parse).value != 0 ==> r == JsNumber(c, parse).value
  {
    match JsNumber(c, parse)
    case Some(v) => if v != 0 then v else d
    case None => d
  }

  /** The storefront's `mapNumber`: null, undefined and "" are 0; otherwise the
      first decimal comma becomes a point, the text is parsed, and NaN (or 0)
      becomes 0. It never fails. Blank text is `Number(" ")`, which is 0. A
      number cell is its own value, since `Number(String(x))` gives back `x`;
      `String(true)` and `String(false)` do not parse, so flags are 0. */
  function MapNumber(x: Cell, parse: string -> Option<int>): (r: int)
    ensures Nullish(x) || x.Flag? ==> r == 0
    ensures x.Txt? && Text.Trim(x.s) == "" ==> r == 0
    ensures x.Num? ==> r == x.n
    ensures x.Txt? && Text.Trim(x.s) != "" ==>
      var p := parse(Text.ReplaceFirst(x.s, ',', '.'));
      (r != 0 <==> p.Some? && p.value != 0) && (r != 0 ==> p == Some(r))
  {
    match x
    case Missing => 0
    case Null => 0
    case Txt(s) =>
      if Text.Trim(s) == "" then 0
      else parse(Text.ReplaceFirst(s, ',', '.')).GetOr(0)
    case Num(n) => n
    case Flag(_) => 0
  }

  /** `mapNumber(x)` is `Number(x) || 0` except on `true` (which `String`
      turns into unparsable text) and on a decimal comma (which it turns into
      a point first). */
  lemma MapNumberAgrees(x: Cell, parse: string -> Option<int>)
    requires x != Flag(true)
    requires x.Txt? ==> ',' !in x.s
    ensures MapNumber(x, parse) == NumberOr(x, parse, 0)
  {
  }
}

=== FILE: hook.dfy ===
/** The data hook's reading of the fetched payload (src/hooks/useMenuData.js):
    sheet names routed by substring, products kept only on an explicit
    "true"/"1"/"sim", typed with `Number(...)` and pre-sorted, variations
    attached by product id, and a configuration where the last row wins. */
module SheetHook {
  import Text
  import opened Wrappers
  import opened Cells
  import opened Sorting
  import Order

  const Produtos: string := "Produtos"
  const Variacoes: string := "Variacoes"
  const Bairros: string := "Bairros"
  const ConfigSheet: string := "Config"

  /** A non-empty needle occurs only in a string holding its first character. */
  lemma {:induction false} FirstCharNeeded(hay: string, needle: string)
    requires needle != [] && needle[0] !in hay
    ensures !Text.Contains(hay, needle)
    decreases |hay|
  {
    assert |needle| <= |hay| ==> hay[..|needle|][0] == hay[0];
    if hay != [] {
      assert forall c :: c in hay[1..] ==> c in hay;
      FirstCharNeeded(hay[1..], needle);
    }
  }

  /** A prefix is contained. */
  lemma PrefixContained(hay: string, needle: string)
    requires needle <= hay
    ensures Text.Contains(hay, needle)
  {
    assert Text.OccursAt(hay, needle, 0);
    Text.ContainsComplete(hay, needle, 0);
  }

  /** `normalizeSheetName`: the canonical name of the first family the
      trimmed, lower-cased name mentions; the name itself otherwise. */
  function NormalizeSheetName(name: string): (r: string)
    ensures r == Produtos || r == Variacoes || r == Bairros || r == ConfigSheet || r == name
    ensures name == "" ==> r == ""
  {
    if name == "" then name
    else
      var n := Text.ToLower(Text.Trim(name));
      if Text.Contains(n, "produto") then Produtos
      else if Text.Contains(n, "variac") then Variacoes
      else if Text.Contains(n, "bairro") then Bairros
      else if Text.Contains(n, "config") then ConfigSheet
      else name
  }

  /** Routing is by substring and in a fixed order: a name that mentions
      products is the products sheet whatever else it mentions, white space
      at its ends included. */
  lemma ProductsFirst(pre: string, post: string)
    ensures NormalizeSheetName(pre + "produto" + post) == Produtos
  {
    MentionedInMiddle(pre, "produto", post);
  }

  /** A name that mentions "variac" and not "produto" is the variations sheet,
      whatever else it mentions. */
  lemma VariationsSecond(pre: string, post: string)
    requires !Text.Contains(Text.ToLower(Text.Trim(pre + "variac" + post)), "produto")
    ensures NormalizeSheetName(pre + "variac" + post) == Variacoes
  {
    MentionedInMiddle(pre, "variac", post);
    var name := pre + "variac" + post;
    RouteBy(name, Text.ToLower(Text.Trim(name)), Variacoes);
  }

  /** A name that mentions "bairro" and neither earlier word is the
      neighbourhoods sheet. */
  lemma NeighbourhoodsThird(pre: string, post: string)
    requires var n := Text.ToLower(Text.Trim(pre + "bairro" + post));
      !Text.Contains(n, "produto") && !Text.Contains(n, "variac")
    ensures NormalizeSheetName(pre + "bairro" + post) == Bairros
  {
    MentionedInMiddle(pre, "bairro", post);
    var name := pre + "bairro" + post;
    RouteBy(name, Text.ToLower(Text.Trim(name)), Bairros);
  }

  /** A name that mentions "config" and none of the other three words is the
      configuration sheet. */
  lemma ConfigLast(pre: string, post: string)
    requires var n := Text.ToLower(Text.Trim(pre + "config" + post));
      !Text.Contains(n, "produto") && !Text.Contains(n, "variac") && !Text.Contains(n, "bairro")
    ensures NormalizeSheetName(pre + "config" + post) == ConfigSheet
  {
    MentionedInMiddle(pre, "config", post);
    var name := pre + "config" + post;
    RouteBy(name, Text.ToLower(Text.Trim(name)), ConfigSheet);
  }

  /** A name whose trimmed lower-case form mentions none of the four words
      keeps its own name. */
  lemma NoFamilyKept(name: string)
    requires var n := Text.ToLower(Text.Trim(name));
      !Text.Contains(n, "produto") && !Text.Contains(n, "variac") && !Text.Contains(n, "bairro") && !Text.Contains(n, "config")
    ensures NormalizeSheetName(name) == name
  {
  }

  /** The same, for a word written between any two texts. */
  lemma MentionedInMiddle(pre: string, w: string, post: string)
    requires w != [] && !Text.IsSpace(w[0]) && !Text.IsSpace(w[|w| - 1])
    requires forall c :: c in w ==> !('A' <= c <= 'Z')
    ensures Text.Contains(Text.ToLower(Text.Trim(pre + w + post)), w)
  {
    Text.NoCapitalsLower(w);
    var name := pre + w + post;
    assert name[|pre|..|pre| + |w|] == w;
    MentionedAfterTrim(name, w, |pre|);
  }

  /** A lower-case word with no white space at its ends, written anywhere in
      a name, is still there once the name is trimmed and lower-cased. */
  lemma MentionedAfterTrim(name: string, w: string, i: nat)
    requires Text.OccursAt(name, w, i)
    requires w != [] && !Text.IsSpace(w[0]) && !Text.IsSpace(w[|w| - 1]) && Text.ToLower(w) == w
    ensures Text.Contains(Text.ToLower(Text.Trim(name)), w)
  {
    Text.TrimKeepsWord(name, w, i);
    var r := Text.Trim(name);
    var j := i - (|name| - |Text.TrimStart(name)|);
    assert Text.OccursAt(r, w, j);
    Text.LowerOccurs(r, w, j);
    var n := Text.ToLower(r);
    Text.ContainsComplete(n, w, j);
  }

  /** The routing of a name, given its trimmed lower-case form and what that contains. */
  lemma RouteBy(name: string, n: string, target: string)
    requires name != "" && Text.ToLower(Text.Trim(name)) == n
    requires !Text.Contains(n, "produto")
    requires target == Variacoes || target == Bairros || target == ConfigSheet
    requires target == Variacoes <==> Text.Contains(n, "variac")
    requires target != Variacoes ==> (target == Bairros <==> Text.Contains(n, "bairro"))
    requires target == ConfigSheet ==> Text.Contains(n, "config")
    ensures NormalizeSheetName(name) == target
  {
  }

  // The canonical names are taken letter by letter below, so that their
  // routing is argued from their letters rather than by evaluating the
  // string functions on a literal.

  predicate SpeltProdutos(name: string) {
    |name| == 8 && name[0] == 'P' && name[1] == 'r' && name[2] == 'o' && name[3] == 'd' && name[4] == 'u' && name[5] == 't' && name[6] == 'o' && name[7] == 's'
  }

  lemma ProdutosMentions(name: string)
    requires SpeltProdutos(name)
    ensures Text.Contains(Text.ToLower(name), "produto")
  {
    var n := Text.ToLower(name);
    assert n[..7] == "produto";
    PrefixContained(n, "produto");
  }

  lemma RoutesProdutos(name: string)
    requires SpeltProdutos(name)
    ensures NormalizeSheetName(name) == name
  {
    Text.TrimKeeps(name);
    ProdutosMentions(name);
  }

  predicate SpeltVariacoes(name: string) {
    |name| == 9 && name[0] == 'V' && name[1] == 'a' && name[2] == 'r' && name[3] == 'i' && name[4] == 'a' && name[5] == 'c' && name[6] == 'o' && name[7] == 'e' && name[8] == 's'
  }

  lemma VariacoesLacksProduto(name: string)
    requires SpeltVariacoes(name)
    ensures !Text.Contains(Text.ToLower(name), "produto")
  {
    var n := Text.ToLower(name);
    assert n == [n[0], n[1], n[2], n[3], n[4], n[5], n[6], n[7], n[8]];
    FirstCharNeeded(n, "produto");
  }

  lemma VariacoesMentions(name: string)
    requires SpeltVariacoes(name)
    ensures Text.Contains(Text.ToLower(name), "variac")
  {
    var n := Text.ToLower(name);
    assert n[..6] == "variac";
    PrefixContained(n, "variac");
  }

  lemma RoutesVariacoes(name: string)
    requires SpeltVariacoes(name)
    ensures NormalizeSheetName(name) == name
  {
    Text.TrimKeeps(name);
    VariacoesLacksProduto(name);
    VariacoesMentions(name);
    RouteBy(name, Text.ToLower(Text.Trim(name)), Variacoes);
  }

  predicate SpeltBairros(name: string) {
    |name| == 7 && name[0] == 'B' && name[1] == 'a' && name[2] == 'i' && name[3] == 'r' && name[4] == 'r' && name[5] == 'o' && name[6] == 's'
  }

  lemma BairrosLacksProduto(name: string)
    requires SpeltBairros(name)
    ensures !Text.Contains(Text.ToLower(name), "produto")
  {
    var n := Text.ToLower(name);
    assert n == [n[0], n[1], n[2], n[3], n[4], n[5], n[6]];
    FirstCharNeeded(n, "produto");
  }

  lemma BairrosLacksVariac(name: string)
    requires SpeltBairros(name)
    ensures !Text.Contains(Text.ToLower(name), "variac")
  {
    var n := Text.ToLower(name);
    assert n == [n[0], n[1], n[2], n[3], n[4], n[5], n[6]];
    FirstCharNeeded(n, "variac");
  }

  lemma BairrosMentions(name: string)
    requires SpeltBairros(name)
    ensures Text.Contains(Text.ToLower(name), "bairro")
  {
    var n := Text.ToLower(name);
    assert n[..6] == "bairro";
    PrefixContained(n, "bairro");
  }

  lemma RoutesBairros(name: string)
    requires SpeltBairros(name)
    ensures NormalizeSheetName(name) == name
  {
    Text.TrimKeeps(name);
    BairrosLacksProduto(name);
    BairrosLacksVariac(name);
    BairrosMentions(name);
    RouteBy(name, Text.ToLower(Text.Trim(name)), Bairros);
  }

  predicate SpeltConfig(name: string) {
    |name| == 6 && name[0] == 'C' && name[1] == 'o' && name[2] == 'n' && name[3] == 'f' && name[4] == 'i' && name[5] == 'g'
  }

  lemma ConfigLacksProduto(name: string)
    requires SpeltConfig(name)
    ensures !Text.Contains(Text.ToLower(name), "produto")
  {
    var n := Text.ToLower(name);
    assert n == [n[0], n[1], n[2], n[3], n[4], n[5]];
    FirstCharNeeded(n, "produto");
  }

  lemma ConfigLacksVariac(name: string)
    requires SpeltConfig(name)
    ensures !Text.Contains(Text.ToLower(name), "variac")
  {
    var n := Text.ToLower(name);
    assert n == [n[0], n[1], n[2], n[3], n[4], n[5]];
    FirstCharNeeded(n, "variac");
  }

  lemma ConfigLacksBairro(name: string)
    requires SpeltConfig(name)
    ensures !Text.Contains(Text.ToLower(name), "bairro")
  {
    var n := Text.ToLower(name);
    assert n == [n[0], n[1], n[2], n[3], n[4], n[5]];
    FirstCharNeeded(n, "bairro");
  }

  lemma ConfigMentions(name: string)
    requires SpeltConfig(name)
    ensures Text.Contains(Text.ToLower(name), "config")
  {
    var n := Text.ToLower(name);
    assert n[..6] == "config";
    PrefixContained(n, "config");
  }

  lemma RoutesConfig(name: string)
    requires SpeltConfig(name)
    ensures NormalizeSheetName(name) == name
  {
    Text.TrimKeeps(name);
    ConfigLacksProduto(name);
    ConfigLacksVariac(name);
    ConfigLacksBairro(name);
    ConfigMentions(name);
    RouteBy(name, Text.ToLower(Text.Trim(name)), ConfigSheet);
  }

  /** One of the four names a sheet is routed to. */
  predicate Canonical(s: string) {
    SpeltProdutos(s) || SpeltVariacoes(s) || SpeltBairros(s) || SpeltConfig(s)
  }

  /** The canonical names route to themselves. */
  lemma CanonicalFixed(s: string)
    requires Canonical(s)
    ensures NormalizeSheetName(s) == s
  {
    if SpeltProdutos(s) {
      RoutesProdutos(s);
    } else if SpeltVariacoes(s) {
      RoutesVariacoes(s);
    } else if SpeltBairros(s) {
      RoutesBairros(s);
    } else {
      RoutesConfig(s);
    }
  }

  /** A name the routing changes is changed into a canonical name. */
  lemma RenamedCanonical(name: string)
    ensures NormalizeSheetName(name) != name ==> Canonical(NormalizeSheetName(name))
  {
    CanonicalSpelt();
  }

  lemma CanonicalSpelt()
    ensures Canonical(Produtos) && Canonical(Variacoes) && Canonical(Bairros) && Canonical(ConfigSheet)
  {
  }

  /** Normalising twice is normalising once. */
  lemma NormalizeIdempotent(name: string)
    ensures NormalizeSheetName(NormalizeSheetName(name)) == NormalizeSheetName(name)
  {
    var r := NormalizeSheetName(name);
    if r != name {
      RenamedCanonical(name);
      CanonicalFixed(r);
    }
  }

  /** The payload's sheets, in key order. */
  type Raw = seq<(string, seq<Row>)>

  /** `mapped[name] || []`: the rows of the sheet whose name routes to
      `name`, or none. */
  function SheetRows(raw: Raw, name: string): (rows: seq<Row>)
    ensures (forall i :: 0 <= i < |raw| ==> NormalizeSheetName(raw[i].0) != name) ==> rows == []
  {
    if raw == [] then []
    else if NormalizeSheetName(raw[|raw| - 1].0) == name then raw[|raw| - 1].1
    else SheetRows(raw[..|raw| - 1], name)
  }

  /** Each later key overwrites: the sheet read is the LAST one routed to `name`. */
  lemma {:induction false} SheetRowsLast(raw: Raw, name: string, i: nat)
    requires i < |raw| && NormalizeSheetName(raw[i].0) == name
    requires forall j :: i < j < |raw| ==> NormalizeSheetName(raw[j].0) != name
    ensures SheetRows(raw, name) == raw[i].1
  {
    if i < |raw| - 1 {
      var init := raw[..|raw| - 1];
      assert init[i] == raw[i];
      assert forall j :: i < j < |init| ==> init[j] == raw[j];
      SheetRowsLast(init, name, i);
    }
  }

  /** The hook's active policy: only "true", "1" or "sim", ignoring case. */
  predicate Active(ativo: Cell) {
    var a := Text.ToLower(ToText(ativo));
    a == "true" || a == "1" || a == "sim"
  }

  /** A missing flag reads "undefined" and drops the product. */
  lemma MissingFlagDropped()
    ensures !Active(Missing)
  {
    assert Text.ToLower("undefined") == "undefined";
  }

  /** A product as the hook types it. `id` is None when `Number(id)` is NaN;
      `precoPromo` is None for null (a falsy cell) and for NaN alike. */
  datatype Product = Product(
    id: Option<int>,
    nome: string,
    descricao: string,
    categoria: string,
    subcategoria: string,
    precoBase: int,
    imagemUrl: string,
    ordem: int,
    popularidade: int,
    precoPromo: Option<int>)

  /** The `ordem` of a product whose own is missing, 0 or NaN. */
  const DefaultOrdem: int := 9999 * Scale

  /** The product mapping of one row. */
  function ToProduct(row: Row, parse: string -> Option<int>): (p: Product)
    ensures p.ordem != 0
    ensures p.ordem == DefaultOrdem || JsNumber(Get(row, "ordem"), parse) == Some(p.ordem)
    ensures p.precoBase == 0 || JsNumber(Get(row, "preco_base"), parse) == Some(p.precoBase)
    ensures p.popularidade == 0 || JsNumber(Get(row, "popularidade"), parse) == Some(p.popularidade)
    ensures !Truthy(Get(row, "preco_promo")) ==> p.precoPromo == None
    ensures p.nome == OptText(Get(row, "nome"))
  {
    Product(
      JsNumber(Get(row, "id"), parse),
      OptText(Get(row, "nome")),
      OptText(Get(row, "descricao")),
      OptText(Get(row, "categoria")),
      OptText(Get(row, "subcategoria")),
      NumberOr(Get(row, "preco_base"), parse, 0),
      OptText(Get(row, "imagem_url")),
      NumberOr(Get(row, "ordem"), parse, DefaultOrdem),
      NumberOr(Get(row, "popularidade"), parse, 0),
      if Truthy(Get(row, "preco_promo")) then JsNumber(Get(row, "preco_promo"), parse) else None)
  }

  /** The filter and map steps: the active rows' products, in input order. */
  function ActiveProducts(rows: seq<Row>, parse: string -> Option<int>): (ps: seq<Product>)
    ensures |ps| <= |rows|
    ensures forall p :: p in ps ==> p.ordem != 0
    ensures forall p :: p in ps ==> exists row :: row in rows && Active(Get(row, "ativo")) && p == ToProduct(row, parse)
    ensures forall row :: row in rows && Active(Get(row, "ativo")) ==> ToProduct(row, parse) in ps
  {
    if rows == [] then []
    else
      var rest := ActiveProducts(rows[1..], parse);
      assert forall row :: row in rows <==> row == rows[0] || row in rows[1..];
      if Active(Get(rows[0], "ativo")) then [ToProduct(rows[0], parse)] + rest else rest
  }

  /** The pre-sort: `ordem` ascending, then `popularidade` descending. */
  function CatalogKey(p: Product): Key {
    Key(p.ordem, -p.popularidade)
  }

  /** The hook's product list. */
  function ProductList(rows: seq<Row>, parse: string -> Option<int>): (ps: seq<Product>)
    ensures multiset(ps) == multiset(ActiveProducts(rows, parse))
    ensures forall p :: p in ps ==> p in ActiveProducts(rows, parse)
    ensures forall i, j :: 0 <= i < j < |ps| ==>
      ps[i].ordem < ps[j].ordem || (ps[i].ordem == ps[j].ordem && ps[i].popularidade >= ps[j].popularidade)
    ensures forall p :: p in ps ==> p.ordem != 0
  {
    var ps := SortBy(ActiveProducts(rows, parse), CatalogKey);
    CatalogOrder(ps);
    SameElements(ActiveProducts(rows, parse), ps);
    ps
  }

  lemma SameElements(a: seq<Product>, b: seq<Product>)
    requires multiset(a) == multiset(b)
    ensures forall p :: p in b ==> p in a
  {
    forall p | p in b
      ensures p in a
    {
      assert p in multiset(b);
    }
  }

  lemma CatalogOrder(ps: seq<Product>)
    requires SortedBy(ps, CatalogKey)
    ensures forall i, j :: 0 <= i < j < |ps| ==>
      ps[i].ordem < ps[j].ordem || (ps[i].ordem == ps[j].ordem && ps[i].popularidade >= ps[j].popularidade)
  {
    forall i, j | 0 <= i < j < |ps|
      ensures ps[i].ordem < ps[j].ordem || (ps[i].ordem == ps[j].ordem && ps[i].popularidade >= ps[j].popularidade)
    {
      assert Le(CatalogKey(ps[i]), CatalogKey(ps[j]));
    }
  }

  /** A variation as the hook types it; `produtoId` is None for NaN. */
  datatype Variation = Variation(produtoId: Option<int>, tipo: string, nome: string, precoExtra: int)

  function ToVariation(row: Row, parse: string -> Option<int>): (v: Variation)
    ensures v.produtoId == JsNumber(Get(row, "produto_id"), parse)
    ensures v.precoExtra == 0 || JsNumber(Get(row, "preco_extra"), parse) == Some(v.precoExtra)
  {
    Variation(
      JsNumber(Get(row, "produto_id"), parse),
      OptText(Get(row, "tipo_variacao")),
      OptText(Get(row, "nome_variacao")),
      NumberOr(Get(row, "preco_extra"), parse, 0))
  }

  /** `variacoes`: one typed variation per row. */
  function Variations(rows: seq<Row>, parse: string -> Option<int>): (vs: seq<Variation>)
    ensures |vs| == |rows|
    ensures forall i :: 0 <= i < |rows| ==> vs[i] == ToVariation(rows[i], parse)
  {
    seq(|rows|, i requires 0 <= i < |rows| => ToVariation(rows[i], parse))
  }

  /** Each row gives its own variation, read from one column per field:
      the type and name are the text of `tipo_variacao` and `nome_variacao`
      or empty (the page's other column names, such as `Tipo`, are not
      consulted), the product id is `Number(produto_id)`, and a numeric
      non-zero `preco_extra` is the extra while a missing one adds nothing. */
  lemma VariationsColumns(rows: seq<Row>, parse: string -> Option<int>, i: nat)
    requires i < |rows|
    ensures var v := Variations(rows, parse)[i]; var row := rows[i];
      (Nullish(Get(row, "tipo_variacao")) ==> v.tipo == "")
      && (Get(row, "tipo_variacao").Txt? ==> v.tipo == Get(row, "tipo_variacao").s)
      && (Get(row, "nome_variacao").Txt? ==> v.nome == Get(row, "nome_variacao").s)
      && v.produtoId == JsNumber(Get(row, "produto_id"), parse)
      && (Get(row, "preco_extra").Num? && Get(row, "preco_extra").n != 0 ==> v.precoExtra == Get(row, "preco_extra").n)
      && (Get(row, "preco_extra") == Missing ==> v.precoExtra == 0)
  {
  }

  /** The property name a numeric id becomes when used as an object key. */
  function IdKey(id: Option<int>): string {
    match id
    case None => "NaN"
    case Some(n) => CentsText(n)
  }

  /** `variacoesByProduto`: variations grouped under their product id's key. */
  function ByProduct(vs: seq<Variation>): (gs: Order.Groups<Variation>)
    ensures forall k :: Order.Lookup(gs, k) == Order.Select(vs, (v: Variation) => IdKey(v.produtoId), k)
  {
    Order.GroupBy(vs, (v: Variation) => IdKey(v.produtoId))
  }

  /** A product with the variations attached to it. */
  datatype Item = Item(product: Product, variacoes: seq<Variation>)

  /** `produtosFull`: each product with its bucket, or `[]`. */
  function Attach(ps: seq<Product>, vs: seq<Variation>): (items: seq<Item>)
    ensures |items| == |ps|
    ensures forall i :: 0 <= i < |ps| ==>
      (items[i].product == ps[i]
       && items[i].variacoes == Order.Select(vs, (v: Variation) => IdKey(v.produtoId), IdKey(ps[i].id)))
  {
    var gs := ByProduct(vs);
    seq(|ps|, i requires 0 <= i < |ps| => Item(ps[i], Order.Lookup(gs, IdKey(ps[i].id))))
  }

  /** A product whose id no variation carries gets an empty list. */
  lemma NoVariationsEmpty(p: Product, vs: seq<Variation>)
    requires forall v :: v in vs ==> IdKey(v.produtoId) != IdKey(p.id)
    ensures Attach([p], vs)[0].variacoes == []
  {
    Order.SelectNonEmpty(vs, (v: Variation) => IdKey(v.produtoId), IdKey(p.id));
  }

  /** The configuration rows collected into `cfg`: rows with a falsy key are
      skipped and a later row overwrites an earlier one with the same key. */
  function Collect(rows: seq<Row>): (cfg: map<string, Cell>)
    ensures forall k :: k in cfg <==> exists i :: 0 <= i < |rows| && Truthy(Get(rows[i], "chave")) && ToText(Get(rows[i], "chave")) == k
  {
    if rows == [] then map[]
    else
      var init := rows[..|rows| - 1];
      var last := rows[|rows| - 1];
      var cfg := Collect(init);
      assert forall i :: 0 <= i < |init| ==> init[i] == rows[i];
      if Truthy(Get(last, "chave")) then cfg[ToText(Get(last, "chave")) := Get(last, "valor")] else cfg
  }

  /** The value under a key is that of the last row naming it. */
  lemma {:induction false} CollectLastWins(rows: seq<Row>, i: nat)
    requires i < |rows| && Truthy(Get(rows[i], "chave"))
    requires forall j :: i < j < |rows| && Truthy(Get(rows[j], "chave")) ==> ToText(Get(rows[j], "chave")) != ToText(Get(rows[i], "chave"))
    ensures Collect(rows)[ToText(Get(rows[i], "chave"))] == Get(rows[i], "valor")
  {
    if i < |rows| - 1 {
      var init := rows[..|rows| - 1];
      assert init[i] == rows[i];
      CollectLastWins(init, i);
    }
  }

  /** Keys are compared exactly: a key differing only in case is another key. */
  lemma CaseSensitive()
    ensures "brand_name" !in Collect([map["chave" := Txt("Brand_Name"), "valor" := Txt("X")]])
  {
    var row: Row := map["chave" := Txt("Brand_Name"), "valor" := Txt("X")];
    assert Get(row, "chave") == Txt("Brand_Name");
    assert "Brand_Name"[0] != "brand_name"[0];
  }

  /** `cfg.k || default`, rendered as text. */
  function Setting(cfg: map<string, Cell>, k: string, default: string): (v: string)
    ensures k !in cfg ==> v == default
    ensures k in cfg && Truthy(cfg[k]) ==> v == ToText(cfg[k])
    ensures k in cfg && !Truthy(cfg[k]) ==> v == default
  {
    if k in cfg && Truthy(cfg[k]) then ToText(cfg[k]) else default
  }

  /** The value a setting resolves to is decided by the last row naming
      its key: that row's value as text when truthy, else the default. */
  lemma SettingOfRows(rows: seq<Row>, k: string, d: string, i: nat)
    requires i < |rows| && Truthy(Get(rows[i], "chave")) && ToText(Get(rows[i], "chave")) == k
    requires forall j :: i < j < |rows| && Truthy(Get(rows[j], "chave")) ==> ToText(Get(rows[j], "chave")) != k
    ensures Setting(Collect(rows), k, d) == if Truthy(Get(rows[i], "valor")) then ToText(Get(rows[i], "valor")) else d
  {
    CollectLastWins(rows, i);
  }

  /** A key no row names resolves to its default. */
  lemma SettingUnnamed(rows: seq<Row>, k: string, d: string)
    requires forall j :: 0 <= j < |rows| && Truthy(Get(rows[j], "chave")) ==> ToText(Get(rows[j], "chave")) != k
    ensures Setting(Collect(rows), k, d) == d
  {
  }

  /** `Number(piece.trim())` of one comma-separated piece. */
  function PieceNumber(piece: string, parse: string -> Option<int>): Option<int> {
    JsNumber(Txt(Text.Trim(piece)), parse)
  }

  /** The numbers of the pieces as `read` gives them, with `filter(Boolean)`
      dropping NaN and 0. */
  function Ids(pieces: seq<string>, read: string -> Option<int>): (ids: seq<int>)
    ensures |ids| <= |pieces|
    ensures forall x :: x in ids ==> x != 0
  {
    if pieces == [] then []
    else
      var rest := Ids(pieces[1..], read);
      match read(pieces[0])
      case Some(n) => if n != 0 then [n] + rest else rest
      case None => rest
  }

  /** An id is kept exactly when some piece reads as that nonzero number. */
  lemma {:induction false} IdsMembers(pieces: seq<string>, read: string -> Option<int>, x: int)
    ensures x in Ids(pieces, read) <==> x != 0 && exists p :: p in pieces && read(p) == Some(x)
  {
    if pieces != [] {
      IdsMembers(pieces[1..], read, x);
      assert forall p :: p in pieces <==> p == pieces[0] || p in pieces[1..];
    }
  }

  /** An unset list gives no ids: `"".split(',')` is `[""]` and `Number("")` is 0. */
  lemma UnsetIdsEmpty(parse: string -> Option<int>)
    ensures Ids(Text.Split("", ','), p => PieceNumber(p, parse)) == []
  {
    assert Text.Split("", ',') == [""];
    assert Text.Trim("") == "";
    assert PieceNumber("", parse) == Some(0);
    assert [""][1..] == [];
  }

  /** `featured_ids` / `promocoes_ids`. */
  function IdList(cfg: map<string, Cell>, k: string, parse: string -> Option<int>): (ids: seq<int>)
    ensures forall x :: x in ids ==> x != 0
    ensures k !in cfg ==> ids == []
  {
    var src := if k in cfg && Truthy(cfg[k]) then ToText(cfg[k]) else "";
    UnsetIdsEmpty(parse);
    Ids(Text.Split(src, ','), p => PieceNumber(p, parse))
  }

  datatype Config = Config(
    brandName: string,
    logoUrl: string,
    whatsappNumber: string,
    accentColor: string,
    darkModeDefault: string,
    featuredIds: seq<int>,
    promocoesIds: seq<int>,
    metaDescription: string,
    keywords: string)

  /** The hook's configuration, each field falling back to its literal default. */
  function MakeConfig(rows: seq<Row>, parse: string -> Option<int>): (c: Config)
    ensures rows == [] ==> c == Config("LeoTech Cardápios", "", "5521967594267", "#EA1D2C", "auto", [], [],
      "Cardápio digital com pedido via WhatsApp.", "cardápio digital, delivery, whatsapp, LeoTech")
    ensures forall x :: x in c.featuredIds + c.promocoesIds ==> x != 0
  {
    var cfg := Collect(rows);
    assert rows == [] ==> cfg == map[];
    Config(
      Setting(cfg, "brand_name", "LeoTech Cardápios"),
      Setting(cfg, "logo_url", ""),
      Setting(cfg, "whatsapp_number", "5521967594267"),
      Setting(cfg, "accent_color", "#EA1D2C"),
      Setting(cfg, "dark_mode_default", "auto"),
      IdList(cfg, "featured_ids", parse),
      IdList(cfg, "promocoes_ids", parse),
      Setting(cfg, "meta_description", "Cardápio digital com pedido via WhatsApp."),
      Setting(cfg, "keywords", "cardápio digital, delivery, whatsapp, LeoTech"))
  }

  /** A field of the configuration comes from the last row naming its key
      with a truthy value: the text fields take that value as text and the id
      lists read that value's comma-separated pieces. */
  lemma MakeConfigFromRow(rows: seq<Row>, parse: string -> Option<int>, i: nat)
    requires i < |rows| && Truthy(Get(rows[i], "chave")) && Truthy(Get(rows[i], "valor"))
    requires forall j :: i < j < |rows| && Truthy(Get(rows[j], "chave")) ==> ToText(Get(rows[j], "chave")) != ToText(Get(rows[i], "chave"))
    ensures var c := MakeConfig(rows, parse); var k := ToText(Get(rows[i], "chave")); var v := ToText(Get(rows[i], "valor"));
      (k == "brand_name" ==> c.brandName == v)
      && (k == "logo_url" ==> c.logoUrl == v)
      && (k == "whatsapp_number" ==> c.whatsappNumber == v)
      && (k == "accent_color" ==> c.accentColor == v)
      && (k == "dark_mode_default" ==> c.darkModeDefault == v)
      && (k == "featured_ids" ==> c.featuredIds == Ids(Text.Split(v, ','), p => PieceNumber(p, parse)))
      && (k == "promocoes_ids" ==> c.promocoesIds == Ids(Text.Split(v, ','), p => PieceNumber(p, parse)))
      && (k == "meta_description" ==> c.metaDescription == v)
      && (k == "keywords" ==> c.keywords == v)
  {
    CollectLastWins(rows, i);
  }

  datatype Menu = Menu(produtos: seq<Item>, config: Config)

  /** `fetchMenu` after the response is parsed. */
  function FetchMenu(raw: Raw, parse: string -> Option<int>): (m: Menu)
    ensures |m.produtos| == |ProductList(SheetRows(raw, Produtos), parse)|
    ensures m.produtos == Attach(ProductList(SheetRows(raw, Produtos), parse), Variations(SheetRows(raw, Variacoes), parse))
    ensures m.config == MakeConfig(SheetRows(raw, ConfigSheet), parse)
    ensures forall it :: it in m.produtos ==> it.product.ordem != 0
    ensures raw == [] ==> m.produtos == []
  {
    var ps := ProductList(SheetRows(raw, Produtos), parse);
    var vs := Variations(SheetRows(raw, Variacoes), parse);
    var items := Attach(ps, vs);
    assert forall it :: it in items ==> it.product in ps;
    Menu(items, MakeConfig(SheetRows(raw, ConfigSheet), parse))
  }

  /** Item i of the menu is product i of the sorted list, and it carries
      exactly the variations whose product id has the same key as its own id. */
  lemma FetchMenuItems(raw: Raw, parse: string -> Option<int>, i: nat, v: Variation)
    requires i < |FetchMenu(raw, parse).produtos|
    ensures var it := FetchMenu(raw, parse).produtos[i];
      it.product == ProductList(SheetRows(raw, Produtos), parse)[i]
      && (v in it.variacoes <==> v in Variations(SheetRows(raw, Variacoes), parse) && IdKey(v.produtoId) == IdKey(it.product.id))
  {
    var it := FetchMenu(raw, parse).produtos[i];
    Order.SelectMembers(Variations(SheetRows(raw, Variacoes), parse), (v: Variation) => IdKey(v.produtoId), IdKey(it.product.id), v);
  }
}

=== FILE: order.dfy ===
/** Configuring one product for an order on the page (src/App.jsx):
    variations grouped by product and by type, the per-type selection, the
    price with the chosen extras, and the message handed to WhatsApp. */
module Order {
  import Text
  import opened Wrappers
  import opened Catalog
  import opened Query

  /** Groups in order of first appearance, as a `Map` or a plain object fills
      up when each element is pushed onto the list under its key. */
  type Groups<T> = seq<(string, seq<T>)>

  /** The keys of a grouping are pairwise distinct. */
  ghost predicate DistinctKeys<T>(gs: Groups<T>) {
    forall i, j :: 0 <= i < j < |gs| ==> gs[i].0 != gs[j].0
  }

  /** The group under `k`, or `[]` when there is none (`map.get(k) || []`). */
  function Lookup<T>(gs: Groups<T>, k: string): seq<T> {
    if gs == [] then []
    else if gs[0].0 == k then gs[0].1
    else Lookup(gs[1..], k)
  }

  /** Pushes `x` onto the group under `k`, opening it at the end if new. */
  function Push<T>(gs: Groups<T>, k: string, x: T): (r: Groups<T>)
    ensures DistinctKeys(gs) ==> DistinctKeys(r)
    ensures forall i :: 0 <= i < |r| ==> r[i].0 == k || exists j :: 0 <= j < |gs| && gs[j].0 == r[i].0
    ensures forall k' :: Lookup(r, k') == Lookup(gs, k') + (if k' == k then [x] else [])
  {
    if gs == [] then [(k, [x])]
    else if gs[0].0 == k then [(k, gs[0].1 + [x])] + gs[1..]
    else
      var rest := Push(gs[1..], k, x);
      PushCons(gs, k, x, rest);
      [gs[0]] + rest
  }

  /** The recursive step of `Push`: the first group is kept in front. */
  lemma PushCons<T>(gs: Groups<T>, k: string, x: T, rest: Groups<T>)
    requires gs != [] && gs[0].0 != k
    requires DistinctKeys(gs[1..]) ==> DistinctKeys(rest)
    requires forall i :: 0 <= i < |rest| ==> rest[i].0 == k || exists j :: 0 <= j < |gs[1..]| && gs[1..][j].0 == rest[i].0
    requires forall k' :: Lookup(rest, k') == Lookup(gs[1..], k') + (if k' == k then [x] else [])
    ensures DistinctKeys(gs) ==> DistinctKeys([gs[0]] + rest)
    ensures forall i :: 0 <= i < |[gs[0]] + rest| ==> ([gs[0]] + rest)[i].0 == k || exists j :: 0 <= j < |gs| && gs[j].0 == ([gs[0]] + rest)[i].0
    ensures forall k' :: Lookup([gs[0]] + rest, k') == Lookup(gs, k') + (if k' == k then [x] else [])
  {
    var r := [gs[0]] + rest;
    forall i | 0 <= i < |rest| && rest[i].0 != k
      ensures exists j :: 0 <= j < |gs| && gs[j].0 == rest[i].0
    {
      var j :| 0 <= j < |gs[1..]| && gs[1..][j].0 == rest[i].0;
      assert gs[j + 1].0 == rest[i].0;
    }
    forall i | 0 <= i < |r|
      ensures r[i].0 == k || exists j :: 0 <= j < |gs| && gs[j].0 == r[i].0
    {
      if i == 0 {
        assert gs[0].0 == r[0].0;
      } else {
        assert r[i] == rest[i - 1];
      }
    }
    if DistinctKeys(gs) {
      forall i | 0 <= i < |rest|
        ensures rest[i].0 != gs[0].0
      {
        if rest[i].0 != k {
          var j :| 0 <= j < |gs[1..]| && gs[1..][j].0 == rest[i].0;
          assert gs[j + 1].0 == rest[i].0;
        }
      }
      assert DistinctKeys(gs[1..]);
      forall i, j | 0 <= i < j < |r|
        ensures r[i].0 != r[j].0
      {
        assert r[j] == rest[j - 1];
        if i > 0 {
          assert r[i] == rest[i - 1];
        }
      }
    }
    forall k'
      ensures Lookup(r, k') == Lookup(gs, k') + (if k' == k then [x] else [])
    {
      assert r[1..] == rest;
    }
  }

  /** The elements of `xs` under key `k`, in order: the reference for grouping. */
  function Select<T>(xs: seq<T>, key: T -> string, k: string): (r: seq<T>)
    ensures |r| <= |xs|
    ensures forall x :: x in r ==> x in xs && key(x) == k
  {
    if xs == [] then []
    else Select(xs[..|xs| - 1], key, k) + (if key(xs[|xs| - 1]) == k then [xs[|xs| - 1]] else [])
  }

  /** The grouping loop: each element pushed under its key, in input order. */
  function GroupBy<T>(xs: seq<T>, key: T -> string): (gs: Groups<T>)
    ensures DistinctKeys(gs)
    ensures forall k :: Lookup(gs, k) == Select(xs, key, k)
    ensures forall i :: 0 <= i < |gs| ==> exists x :: x in xs && key(x) == gs[i].0
  {
    if xs == [] then []
    else
      var init := xs[..|xs| - 1];
      var last := xs[|xs| - 1];
      var g := GroupBy(init, key);
      var r := Push(g, key(last), last);
      assert forall x :: x in init ==> x in xs;
      assert last in xs;
      r
  }

  /** A key has a non-empty group exactly when some element carries it. */
  lemma {:induction false} GroupsNonEmpty<T>(xs: seq<T>, key: T -> string, k: string)
    ensures Lookup(GroupBy(xs, key), k) != [] <==> exists x :: x in xs && key(x) == k
  {
    SelectNonEmpty(xs, key, k);
  }

  lemma {:induction false} SelectNonEmpty<T>(xs: seq<T>, key: T -> string, k: string)
    ensures Select(xs, key, k) != [] <==> exists x :: x in xs && key(x) == k
  {
    if xs != [] {
      var init := xs[..|xs| - 1];
      var last := xs[|xs| - 1];
      SelectNonEmpty(init, key, k);
      assert xs == init + [last];
      if exists x :: x in xs && key(x) == k {
        var x :| x in xs && key(x) == k;
        if x != last {
          assert x in init;
        }
      }
    }
  }

  /** An element is in the group of `k` exactly when it carries `k`. */
  lemma {:induction false} SelectMembers<T>(xs: seq<T>, key: T -> string, k: string, x: T)
    ensures x in Select(xs, key, k) <==> x in xs && key(x) == k
  {
    if xs != [] {
      var init := xs[..|xs| - 1];
      var last := xs[|xs| - 1];
      SelectMembers(init, key, k, x);
      assert xs == init + [last];
      assert x in xs <==> x in init || x == last;
    }
  }

  /** `variacoesByProduto`: variations grouped by `String(produto_id)`. */
  function ByProduct(vs: seq<Variation>): (gs: Groups<Variation>)
    ensures DistinctKeys(gs)
    ensures forall id :: Lookup(gs, id) == Select(vs, (v: Variation) => v.produtoId, id)
  {
    GroupBy(vs, (v: Variation) => v.produtoId)
  }

  /** The heading a variation is listed under: its type, or "Opção" when empty. */
  function Label(tipo: string): (l: string)
    ensures l != ""
    ensures tipo != "" ==> l == tipo
  {
    if tipo == "" then "Opção" else tipo
  }

  /** `tiposVariacao`: the active product's variations grouped by heading. */
  function TiposVariacao(active: Option<Product>, byProduct: Groups<Variation>): (gs: Groups<Variation>)
    ensures DistinctKeys(gs)
    ensures active.None? ==> gs == []
    ensures active.Some? ==>
      (forall h :: Lookup(gs, h) == Select(Lookup(byProduct, active.value.id), (v: Variation) => Label(v.tipo), h))
    ensures forall i :: 0 <= i < |gs| ==> gs[i].0 != ""
  {
    match active
    case None => []
    case Some(p) =>
      var gs := GroupBy(Lookup(byProduct, p.id), (v: Variation) => Label(v.tipo));
      HeadingsNonEmpty(Lookup(byProduct, p.id), gs);
      gs
  }

  lemma HeadingsNonEmpty(list: seq<Variation>, gs: Groups<Variation>)
    requires gs == GroupBy(list, (v: Variation) => Label(v.tipo))
    ensures forall i :: 0 <= i < |gs| ==> gs[i].0 != ""
  {
    forall i | 0 <= i < |gs|
      ensures gs[i].0 != ""
    {
      var x :| x in list && Label(x.tipo) == gs[i].0;
    }
  }

  /** The choice for one variation type; `None` is `undefined`. */
  datatype Choice = Choice(tipo: string, nome: Option<string>)

  /** `selectedVariacoes`: the choices in the order their types were first set. */
  type Selection = seq<Choice>

  /** `selection[tipo]`. */
  function Get(s: Selection, tipo: string): Option<string> {
    if s == [] then None
    else if s[0].tipo == tipo then s[0].nome
    else Get(s[1..], tipo)
  }

  ghost predicate DistinctTypes(s: Selection) {
    forall i, j :: 0 <= i < j < |s| ==> s[i].tipo != s[j].tipo
  }

  /** `{...s, [tipo]: v}`: an existing type keeps its place, a new one goes last. */
  function Put(s: Selection, tipo: string, v: Option<string>): (r: Selection)
    ensures Get(r, tipo) == v
    ensures forall t :: t != tipo ==> Get(r, t) == Get(s, t)
    ensures DistinctTypes(s) ==> DistinctTypes(r)
    ensures forall i :: 0 <= i < |r| ==> r[i].tipo == tipo || exists j :: 0 <= j < |s| && s[j].tipo == r[i].tipo
    ensures |s| <= |r| <= |s| + 1
  {
    if s == [] then [Choice(tipo, v)]
    else if s[0].tipo == tipo then [Choice(tipo, v)] + s[1..]
    else
      var rest := Put(s[1..], tipo, v);
      PutStep(s, tipo, rest);
      [s[0]] + rest
  }

  lemma PutStep(s: Selection, tipo: string, rest: Selection)
    requires s != [] && s[0].tipo != tipo
    requires forall i :: 0 <= i < |rest| ==> rest[i].tipo == tipo || exists j :: 0 <= j < |s[1..]| && s[1..][j].tipo == rest[i].tipo
    requires DistinctTypes(s[1..]) ==> DistinctTypes(rest)
    ensures forall i :: 0 <= i < |[s[0]] + rest| ==> ([s[0]] + rest)[i].tipo == tipo || exists j :: 0 <= j < |s| && s[j].tipo == ([s[0]] + rest)[i].tipo
    ensures DistinctTypes(s) ==> DistinctTypes([s[0]] + rest)
  {
    var r := [s[0]] + rest;
    forall i | 0 <= i < |r| && r[i].tipo != tipo
      ensures exists j :: 0 <= j < |s| && s[j].tipo == r[i].tipo
    {
      if i > 0 {
        var j :| 0 <= j < |s[1..]| && s[1..][j].tipo == rest[i - 1].tipo;
        assert s[j + 1].tipo == r[i].tipo;
      } else {
        assert s[0].tipo == r[0].tipo;
      }
    }
    if DistinctTypes(s) {
      assert DistinctTypes(s[1..]);
      forall i, j | 0 <= i < j < |r|
        ensures r[i].tipo != r[j].tipo
      {
        if i == 0 && r[j].tipo != tipo {
          var m :| 0 <= m < |s[1..]| && s[1..][m].tipo == rest[j - 1].tipo;
          assert s[m + 1].tipo == r[j].tipo;
        }
      }
    }
  }

  /** `handleChoose(tipo, nome)`: choosing the current choice again clears it,
      any other name replaces it, and no other type changes. */
  function HandleChoose(s: Selection, tipo: string, nome: string): (r: Selection)
    ensures Get(s, tipo) == Some(nome) ==> Get(r, tipo) == None
    ensures Get(s, tipo) != Some(nome) ==> Get(r, tipo) == Some(nome)
    ensures forall t :: t != tipo ==> Get(r, t) == Get(s, t)
    ensures DistinctTypes(s) ==> DistinctTypes(r)
  {
    Put(s, tipo, if Get(s, tipo) == Some(nome) then None else Some(nome))
  }

  /** Choosing the same name twice returns the type to where it was, when it
      was unset or held that name; a different earlier name is cleared. */
  lemma ChooseTwice(s: Selection, tipo: string, nome: string)
    ensures var r := HandleChoose(HandleChoose(s, tipo, nome), tipo, nome);
      Get(r, tipo) == (if Get(s, tipo) == Some(nome) then Some(nome) else None)
      && forall t :: t != tipo ==> Get(r, t) == Get(s, t)
  {
  }

  /** Two different names chosen in turn leave the second one chosen. */
  lemma ChooseReplaces(s: Selection, tipo: string, a: string, b: string)
    requires a != b
    ensures Get(HandleChoose(HandleChoose(s, tipo, a), tipo, b), tipo) == Some(b)
  {
  }

  /** `sel && sel === v.nome_variacao`, looked up under the raw type. */
  predicate Picked(v: Variation, s: Selection) {
    Get(s, v.tipo) == Some(v.nome) && v.nome != ""
  }

  /** The extras of the picked variations in `list`. */
  function Extras(list: seq<Variation>, s: Selection): (total: int)
    ensures (forall i :: 0 <= i < |list| ==> !Picked(list[i], s)) ==> total == 0
  {
    if list == [] then 0
    else (if Picked(list[0], s) then list[0].precoExtra else 0) + Extras(list[1..], s)
  }

  /** The picked variations of `list`, in order. */
  function PickedOf(list: seq<Variation>, s: Selection): (r: seq<Variation>)
    ensures |r| <= |list|
  {
    if list == [] then []
    else (if Picked(list[0], s) then [list[0]] else []) + PickedOf(list[1..], s)
  }

  /** The picked variations are exactly those of `list` whose raw type holds their name. */
  lemma {:induction false} PickedOfMembers(list: seq<Variation>, s: Selection, v: Variation)
    ensures v in PickedOf(list, s) <==> v in list && Picked(v, s)
  {
    if list != [] {
      PickedOfMembers(list[1..], s, v);
      assert v in list <==> v == list[0] || v in list[1..];
    }
  }

  function SumExtras(vs: seq<Variation>): int {
    if vs == [] then 0 else vs[0].precoExtra + SumExtras(vs[1..])
  }

  /** The extras are the sum over exactly the picked variations. */
  lemma {:induction false} ExtrasArePicked(list: seq<Variation>, s: Selection)
    ensures Extras(list, s) == SumExtras(PickedOf(list, s))
  {
    if list != [] {
      ExtrasArePicked(list[1..], s);
      if Picked(list[0], s) {
        assert ([list[0]] + PickedOf(list[1..], s))[1..] == PickedOf(list[1..], s);
      } else {
        assert [] + PickedOf(list[1..], s) == PickedOf(list[1..], s);
      }
    }
  }

  /** `precoComVariacoes`, as written: the effective price plus the extras
      picked under each variation's raw type; 0 without an active product. */
  function PrecoComVariacoes(active: Option<Product>, s: Selection, byProduct: Groups<Variation>): (price: int)
    ensures active.None? ==> price == 0
    ensures active.Some? && s == [] ==> price == EffPrice(active.value)
  {
    match active
    case None => 0
    case Some(p) => EffPrice(p) + Extras(Lookup(byProduct, p.id), s)
  }

  /** A promotional price of 15.00 and one chosen extra of 3.00 give 18.00. */
  lemma PriceExample(p: Product, v: Variation)
    requires p.precoBase == 2000 && p.precoPromo == 1500
    requires v.produtoId == p.id && v.tipo == "Tamanho" && v.nome == "Grande" && v.precoExtra == 300
    ensures PrecoComVariacoes(Some(p), HandleChoose([], "Tamanho", "Grande"), ByProduct([v])) == 1800
  {
    assert [v][..0] == [];
    var s := HandleChoose([], "Tamanho", "Grande");
    assert Picked(v, s);
    assert Lookup(ByProduct([v]), p.id) == [v];
    assert [v][1..] == [];
  }

  /** A variation with no type is listed under "Opção", so clicking it stores
      the choice under "Opção" while the price looks under "": the extra of
      an untyped variation is never added. */
  lemma UntypedExtraIgnored(p: Product, v: Variation)
    requires v.produtoId == p.id && v.tipo == "" && v.nome == "Grande" && v.precoExtra == 300
    ensures PrecoComVariacoes(Some(p), HandleChoose([], Label(v.tipo), v.nome), ByProduct([v])) == EffPrice(p)
  {
    assert [v][..0] == [];
    assert Lookup(ByProduct([v]), p.id) == [v];
    assert [v][1..] == [];
  }

  /** The choice a variation's button shows as selected: looked up under its heading. */
  predicate ShownSelected(v: Variation, s: Selection) {
    Get(s, Label(v.tipo)) == Some(v.nome)
  }

  /** The extras as the headings intend: the variations shown as selected. */
  function LabelledExtras(list: seq<Variation>, s: Selection): (total: int)
    ensures (forall i :: 0 <= i < |list| ==> !ShownSelected(list[i], s) || list[i].nome == "") ==> total == 0
  {
    if list == [] then 0
    else (if ShownSelected(list[0], s) && list[0].nome != "" then list[0].precoExtra else 0)
         + LabelledExtras(list[1..], s)
  }

  /** The corrected price: each extra counts when its button shows selected. */
  function PriceWithChoices(active: Option<Product>, s: Selection, byProduct: Groups<Variation>): (price: int)
    ensures active.None? ==> price == 0
    ensures active.Some? && s == [] ==> price == EffPrice(active.value)
  {
    match active
    case None => 0
    case Some(p) => EffPrice(p) + LabelledExtras(Lookup(byProduct, p.id), s)
  }

  /** Clicking a variation's button adds its extra, typed or not. */
  lemma ClickedExtraCounted(p: Product, v: Variation)
    requires v.produtoId == p.id && v.nome != ""
    ensures PriceWithChoices(Some(p), HandleChoose([], Label(v.tipo), v.nome), ByProduct([v]))
            == EffPrice(p) + v.precoExtra
  {
    assert [v][..0] == [];
    assert Lookup(ByProduct([v]), p.id) == [v];
    assert [v][1..] == [];
  }

  /** For typed variations the two prices agree. */
  lemma {:induction false} TypedAgree(list: seq<Variation>, s: Selection)
    requires forall i :: 0 <= i < |list| ==> list[i].tipo != ""
    ensures LabelledExtras(list, s) == Extras(list, s)
  {
    if list != [] {
      TypedAgree(list[1..], s);
    }
  }

  /** The total shown in the dialog: `precoComVariacoes` as written, or the
      product's own price when that is 0. It is the effective price plus the
      extras of exactly the variations picked under their raw type. */
  function ModalTotal(p: Product, s: Selection, byProduct: Groups<Variation>): (total: int)
    ensures s == [] ==> total == EffPrice(p)
    ensures var withExtras := EffPrice(p) + SumExtras(PickedOf(Lookup(byProduct, p.id), s));
      (withExtras != 0 ==> total == withExtras) && (withExtras == 0 ==> total == EffPrice(p))
    ensures total == 0 ==> EffPrice(p) == 0
  {
    ExtrasArePicked(Lookup(byProduct, p.id), s);
    var price := PrecoComVariacoes(Some(p), s, byProduct);
    if price != 0 then price else EffPrice(p)
  }

  /** The dialog shows the same: clicking an untyped variation leaves its
      total at the product's own price. */
  lemma DialogIgnoresUntypedExtra(p: Product, v: Variation)
    requires v.produtoId == p.id && v.tipo == "" && v.nome == "Grande" && v.precoExtra == 300
    ensures ModalTotal(p, HandleChoose([], Label(v.tipo), v.nome), ByProduct([v])) == EffPrice(p)
  {
    UntypedExtraIgnored(p, v);
  }

  /** The dialog total as the headings intend, over the corrected price. */
  function IntendedModalTotal(p: Product, s: Selection, byProduct: Groups<Variation>): (total: int)
    ensures s == [] ==> total == EffPrice(p)
    ensures PriceWithChoices(Some(p), s, byProduct) != 0 ==> total == PriceWithChoices(Some(p), s, byProduct)
    ensures total == 0 ==> EffPrice(p) == 0
  {
    var price := PriceWithChoices(Some(p), s, byProduct);
    if price != 0 then price else EffPrice(p)
  }

  /** With the corrected price the dialog shows a clicked extra, typed or not. */
  lemma ClickedExtraShown(p: Product, v: Variation)
    requires v.produtoId == p.id && v.nome != "" && EffPrice(p) + v.precoExtra != 0
    ensures IntendedModalTotal(p, HandleChoose([], Label(v.tipo), v.nome), ByProduct([v])) == EffPrice(p) + v.precoExtra
  {
    ClickedExtraCounted(p, v);
  }

  /** The entries whose value is truthy, in selection order. */
  function Chosen(s: Selection): (r: seq<(string, string)>)
    ensures forall i :: 0 <= i < |r| ==> r[i].1 != ""
    ensures |r| <= |s|
  {
    if s == [] then []
    else
      (if s[0].nome.Some? && s[0].nome.value != "" then [(s[0].tipo, s[0].nome.value)] else [])
      + Chosen(s[1..])
  }

  /** A choice is listed exactly when its type holds a non-empty name. */
  lemma {:induction false} ChosenMembers(s: Selection, t: string, n: string)
    ensures (t, n) in Chosen(s) <==> Choice(t, Some(n)) in s && n != ""
  {
    if s != [] {
      ChosenMembers(s[1..], t, n);
      assert Choice(t, Some(n)) in s <==> Choice(t, Some(n)) == s[0] || Choice(t, Some(n)) in s[1..];
    }
  }

  /** Listing works entry by entry, so the listed choices keep the order of
      the selection. */
  lemma {:induction false} ChosenAppend(a: Selection, b: Selection)
    ensures Chosen(a + b) == Chosen(a) + Chosen(b)
  {
    if a == [] {
      assert a + b == b;
    } else {
      assert (a + b)[0] == a[0];
      assert (a + b)[1..] == a[1..] + b;
      ChosenAppend(a[1..], b);
    }
  }

  /** The "type: name" parts of the variations line. */
  function Details(cs: seq<(string, string)>): (r: seq<string>)
    ensures |r| == |cs|
    ensures forall i :: 0 <= i < |cs| ==> r[i] == cs[i].0 + ": " + cs[i].1
  {
    seq(|cs|, i requires 0 <= i < |cs| => cs[i].0 + ": " + cs[i].1)
  }

  /** Every listed choice appears as "type: name" in the joined details. */
  lemma DetailsJoined(cs: seq<(string, string)>, i: nat)
    requires i < |cs|
    ensures Text.Contains(Text.Join(Details(cs), "; "), cs[i].0 + ": " + cs[i].1)
  {
    Text.JoinHolds(Details(cs), "; ", i);
  }

  const Greeting: string := "Olá! Gostaria de pedir: *"
  const Closing: string := "\nObs: "

  /** The variations line, present only when the product has variations and
      some type has a truthy choice. */
  function VariationsLine(list: seq<Variation>, s: Selection): string {
    var chosen := Chosen(s);
    if |list| > 0 && |chosen| > 0 then "\nVariações: " + Text.Join(Details(chosen), "; ") + "." else ""
  }

  /** The text `openPedidoWhats` builds before encoding. `money` stands for the
      `pt-BR` currency formatting. The pieces are joined from the right, which
      gives the same text. */
  function OrderText(p: Product, s: Selection, byProduct: Groups<Variation>, money: int -> string): (text: string)
    ensures Text.Contains(text, p.nome)
    ensures Text.Contains(text, money(EffPrice(p)))
  {
    var m := money(EffPrice(p));
    var rest := ")." + VariationsLine(Lookup(byProduct, p.id), s) + Closing;
    var tail := "* (" + (m + rest);
    Text.ContainsFront(m, rest);
    Text.ContainsAfter("* (", m + rest, m);
    Text.ContainsAfter(p.nome, tail, m);
    Text.ContainsAfter(Greeting, p.nome + tail, m);
    Text.ContainsFront(p.nome, tail);
    Text.ContainsAfter(Greeting, p.nome + tail, p.nome);
    Greeting + (p.nome + tail)
  }

  /** Without a truthy choice the message is just the product line and the
      notes prompt: no variations line. */
  lemma NoChoiceNoLine(p: Product, s: Selection, byProduct: Groups<Variation>, money: int -> string)
    requires Chosen(s) == []
    ensures OrderText(p, s, byProduct, money) == Greeting + (p.nome + ("* (" + (money(EffPrice(p)) + (")." + Closing))))
  {
    assert ")." + "" == ").";
  }

  /** When the product has variations, the message names every type that
      holds a non-empty choice, as "type: name". */
  lemma EveryChoiceNamed(p: Product, s: Selection, byProduct: Groups<Variation>, money: int -> string, t: string, n: string)
    requires Choice(t, Some(n)) in s && n != "" && Lookup(byProduct, p.id) != []
    ensures Text.Contains(OrderText(p, s, byProduct, money), t + ": " + n)
  {
    var d := t + ": " + n;
    var chosen := Chosen(s);
    ChosenMembers(s, t, n);
    var k :| 0 <= k < |chosen| && chosen[k] == (t, n);
    DetailsJoined(chosen, k);
    var joined := Text.Join(Details(chosen), "; ");
    var line := "\nVariações: " + joined + ".";
    assert VariationsLine(Lookup(byProduct, p.id), s) == line;
    Text.ContainsAfter("\nVariações: ", joined, d);
    Text.ContainsBefore("\nVariações: " + joined, ".", d);
    Text.ContainsAfter(").", line, d);
    Text.ContainsBefore(")." + line, Closing, d);
    var m := money(EffPrice(p));
    var rest := ")." + line + Closing;
    Text.ContainsAfter(m, rest, d);
    Text.ContainsAfter("* (", m + rest, d);
    Text.ContainsAfter(p.nome, "* (" + (m + rest), d);
    Text.ContainsAfter(Greeting, p.nome + ("* (" + (m + rest)), d);
  }

  /** The link opened: the configured number reduced to its digits, and the
      encoded text (`encode` stands for `encodeURIComponent`). */
  function OrderUrl(number: string, text: string, encode: string -> string): (url: string)
    ensures var d := Text.DigitsOnly(number);
      |url| == 14 + |d| + 6 + |encode(text)|
      && url[..14] == "https://wa.me/"
      && url[14..14 + |d|] == d
      && url[14 + |d|..14 + |d| + 6] == "?text="
      && url[14 + |d| + 6..] == encode(text)
    ensures forall i :: 14 <= i < 14 + |Text.DigitsOnly(number)| ==> Text.IsDigit(url[i])
  {
    var d := Text.DigitsOnly(number);
    var url := "https://wa.me/" + d + "?text=" + encode(text);
    assert url[..14] == "https://wa.me/";
    assert url[14..14 + |d|] == d;
    assert url[14 + |d|..14 + |d| + 6] == "?text=";
    assert url[14 + |d| + 6..] == encode(text);
    url
  }

  /** A number written with digits only goes into the link unchanged. */
  lemma DigitNumberKept(number: string, text: string, encode: string -> string)
    requires forall i :: 0 <= i < |number| ==> Text.IsDigit(number[i])
    ensures Text.DigitsOnly(number) == number
    ensures OrderUrl(number, text, encode)[14..14 + |number|] == number
  {
    Text.DigitsOnlyKeepsDigits(number);
  }
}

=== FILE: query.dfy ===
/** The page's query pipeline over the normalised products (src/App.jsx):
    the category lists, the price ceiling, the four filters, the four sort
    modes and the growing page of visible products. */
module Query {
  import Text
  import opened Wrappers
  import opened Catalog
  import opened Sorting

  /** The selection that lets every category (and subcategory) through. */
  const All: string := "todas"

  /** The page size of the visible list. */
  const Page: nat := 24

  /** `promo || base`: the price the page filters and sorts by. */
  function EffPrice(p: Product): int {
    if p.precoPromo != 0 then p.precoPromo else p.precoBase
  }

  /** The price ceiling set whenever the products change: the largest
      effective price, and never below 0. */
  function PrecoMax(ps: seq<Product>): (m: int)
    ensures m >= 0
    ensures forall p :: p in ps ==> EffPrice(p) <= m
    ensures m == 0 || exists p :: p in ps && EffPrice(p) == m
  {
    if ps == [] then 0
    else
      var rest := PrecoMax(ps[1..]);
      assert forall p :: p in ps[1..] ==> p in ps;
      if EffPrice(ps[0]) > rest then EffPrice(ps[0]) else rest
  }

  /** `clamp(precoMax || Infinity, 0, Infinity)`; None is no ceiling. */
  function Ceiling(precoMax: int): (c: Option<int>)
    ensures precoMax == 0 <==> c.None?
    ensures c.Some? ==> c.value >= 0 && (precoMax > 0 ==> c.value == precoMax)
    ensures precoMax < 0 ==> c == Some(0)
  {
    if precoMax == 0 then None else Some(if precoMax < 0 then 0 else precoMax)
  }

  /** The state of the search bar and the selectors. */
  datatype View = View(q: string, categoria: string, subcategoria: string, precoMax: int, ordenacao: string)

  /** `stringIncludes`: a substring test ignoring case. */
  predicate Includes(hay: string, needle: string) {
    Text.Contains(Text.ToLower(hay), Text.ToLower(needle))
  }

  predicate CategoryOk(p: Product, v: View) {
    v.categoria == All || p.categoria == v.categoria
  }

  predicate SubcategoryOk(p: Product, v: View) {
    v.subcategoria == All || p.subcategoria == v.subcategoria
  }

  predicate TextOk(p: Product, v: View) {
    v.q == "" || Includes(p.nome, v.q) || Includes(p.descricao, v.q)
  }

  predicate PriceOk(p: Product, v: View) {
    match Ceiling(v.precoMax)
    case None => true
    case Some(c) => EffPrice(p) <= c
  }

  /** All four filters of `filtrados`. */
  predicate Matches(p: Product, v: View) {
    CategoryOk(p, v) && SubcategoryOk(p, v) && TextOk(p, v) && PriceOk(p, v)
  }

  /** The filter chain: the matching products, in catalogue order. */
  function Filtered(ps: seq<Product>, v: View): (r: seq<Product>)
    ensures multiset(r) <= multiset(ps)
    ensures forall p :: p in r ==> Matches(p, v)
    ensures forall p :: p in ps && Matches(p, v) ==> p in r
  {
    if ps == [] then []
    else
      assert ps == [ps[0]] + ps[1..];
      var rest := Filtered(ps[1..], v);
      if Matches(ps[0], v) then [ps[0]] + rest else rest
  }

  /** Whether some product in the list has a positive popularity. */
  predicate HasPopularity(ps: seq<Product>) {
    exists p :: p in ps && p.popularidade > 0
  }

  /** The sort key of each mode; `nameKey` stands for the `pt-BR` collation
      of names. None means the list keeps its order. */
  function ModeKey(mode: string, list: seq<Product>, nameKey: string -> int): Option<Product -> Key> {
    if mode == "mais_vendidos" then
      if HasPopularity(list) then Some((p: Product) => Key(-p.popularidade, 0))
      else Some((p: Product) => Key(p.ordem, 0))
    else if mode == "preco_asc" then Some((p: Product) => Key(EffPrice(p), 0))
    else if mode == "preco_desc" then Some((p: Product) => Key(-EffPrice(p), 0))
    else if mode == "az" then Some((p: Product) => Key(nameKey(p.nome), 0))
    else None
  }

  /** The sort step of `filtrados`. */
  function Arrange(list: seq<Product>, mode: string, nameKey: string -> int): (r: seq<Product>)
    ensures multiset(r) == multiset(list)
    ensures mode == "mais_vendidos" && HasPopularity(list) ==>
      forall i, j :: 0 <= i < j < |r| ==> r[i].popularidade >= r[j].popularidade
    ensures mode == "mais_vendidos" && !HasPopularity(list) ==>
      forall i, j :: 0 <= i < j < |r| ==> r[i].ordem <= r[j].ordem
    ensures mode == "preco_asc" ==> forall i, j :: 0 <= i < j < |r| ==> EffPrice(r[i]) <= EffPrice(r[j])
    ensures mode == "preco_desc" ==> forall i, j :: 0 <= i < j < |r| ==> EffPrice(r[i]) >= EffPrice(r[j])
    ensures mode == "az" ==> forall i, j :: 0 <= i < j < |r| ==> nameKey(r[i].nome) <= nameKey(r[j].nome)
    ensures ModeKey(mode, list, nameKey).None? ==> r == list
  {
    match ModeKey(mode, list, nameKey)
    case None => list
    case Some(key) => SortBy(list, key)
  }

  /** Products with equal sort keys keep their relative order. */
  lemma ArrangeStable(list: seq<Product>, mode: string, nameKey: string -> int, k: Key)
    requires ModeKey(mode, list, nameKey).Some?
    ensures var key := ModeKey(mode, list, nameKey).value;
      WithKey(Arrange(list, mode, nameKey), key, k) == WithKey(list, key, k)
  {
    SortStable(list, ModeKey(mode, list, nameKey).value, k);
  }

  /** `filtrados`: the matching products, sorted. */
  function Filtrados(ps: seq<Product>, v: View, nameKey: string -> int): (r: seq<Product>)
    ensures multiset(r) <= multiset(ps)
    ensures forall p :: p in r ==> Matches(p, v)
    ensures forall p :: p in ps && Matches(p, v) ==> p in r
  {
    var f := Filtered(ps, v);
    var r := Arrange(f, v.ordenacao, nameKey);
    assert forall p :: p in r <==> p in multiset(f);
    r
  }

  /** With the ceiling at the products' own maximum, the price filter lets
      every product through. */
  lemma CeilingAtMaxKeepsAll(ps: seq<Product>, v: View)
    requires v.precoMax == PrecoMax(ps)
    ensures forall p :: p in ps ==> PriceOk(p, v)
  {
  }

  /** With only the defaults selected (all categories, no text, ceiling at the
      maximum, no sort), the view is the whole catalogue. */
  lemma {:induction false} DefaultViewIsIdentity(ps: seq<Product>, v: View, nameKey: string -> int)
    requires v.categoria == All && v.subcategoria == All && v.q == ""
    requires v.precoMax == PrecoMax(ps) && ModeKey(v.ordenacao, ps, nameKey).None?
    ensures Filtrados(ps, v, nameKey) == ps
  {
    FilteredAll(ps, v);
  }

  lemma {:induction false} FilteredAll(ps: seq<Product>, v: View)
    requires forall p :: p in ps ==> Matches(p, v)
    ensures Filtered(ps, v) == ps
  {
    if ps != [] {
      assert forall p :: p in ps[1..] ==> p in ps;
      FilteredAll(ps[1..], v);
      assert ps == [ps[0]] + ps[1..];
    }
  }

  /** The filter works product by product, so it keeps the catalogue's order
      and each kept product as often as it occurs. */
  lemma {:induction false} FilteredAppend(a: seq<Product>, b: seq<Product>, v: View)
    ensures Filtered(a + b, v) == Filtered(a, v) + Filtered(b, v)
    decreases |a|
  {
    if a != [] {
      assert (a + b)[0] == a[0];
      assert (a + b)[1..] == a[1..] + b;
      FilteredAppend(a[1..], b, v);
    } else {
      assert a + b == b;
    }
  }

  /** The filter keeps nothing when no product matches. */
  lemma {:induction false} NoneMatchFiltered(ps: seq<Product>, v: View)
    requires forall p :: p in ps ==> !Matches(p, v)
    ensures Filtered(ps, v) == []
  {
    if ps != [] {
      assert ps[0] in ps;
      assert forall p :: p in ps[1..] ==> p in ps;
      NoneMatchFiltered(ps[1..], v);
    }
  }

  /** A query that matches no name or description empties the view. */
  lemma NoMatchEmpty(ps: seq<Product>, v: View, nameKey: string -> int)
    requires v.q != "" && forall p :: p in ps ==> !Includes(p.nome, v.q) && !Includes(p.descricao, v.q)
    ensures Filtrados(ps, v, nameKey) == []
  {
    assert forall p :: p in ps ==> !TextOk(p, v);
    NoneMatchFiltered(ps, v);
    var r := Arrange([], v.ordenacao, nameKey);
    assert |r| == |multiset(r)| == 0;
  }

  /** The input that drives the visible count. */
  datatype Signal = FilterChanged | MoreRequested

  /** `visibleCount` after a series of signals, starting at one page. */
  function VisibleCount(signals: seq<Signal>): (c: nat)
    ensures c >= Page && c % Page == 0
    ensures signals != [] && signals[|signals| - 1] == FilterChanged ==> c == Page
  {
    if signals == [] then Page
    else
      var c := VisibleCount(signals[..|signals| - 1]);
      match signals[|signals| - 1]
      case FilterChanged => Page
      case MoreRequested => c + Page
  }

  /** Each "more" signal adds exactly one page; only a filter change lowers the count. */
  lemma MoreGrows(signals: seq<Signal>)
    ensures VisibleCount(signals + [MoreRequested]) == VisibleCount(signals) + Page
    ensures VisibleCount(signals + [FilterChanged]) <= VisibleCount(signals)
  {
    assert (signals + [MoreRequested])[..|signals|] == signals;
    assert (signals + [FilterChanged])[..|signals|] == signals;
  }

  /** After k "more" signals since the last filter change, k + 1 pages are asked for. */
  lemma {:induction false} CountAfterReset(prefix: seq<Signal>, k: nat)
    ensures VisibleCount(prefix + [FilterChanged] + seq(k, _ => MoreRequested)) == (k + 1) * Page
  {
    var s := prefix + [FilterChanged] + seq(k, _ => MoreRequested);
    if k == 0 {
      assert s == prefix + [FilterChanged];
    } else {
      var t := prefix + [FilterChanged] + seq(k - 1, _ => MoreRequested);
      assert s == t + [MoreRequested];
      CountAfterReset(prefix, k - 1);
      MoreGrows(t);
    }
  }

  /** `visible`: the first `count` products of the view, or all of them. */
  function Visible(filtrados: seq<Product>, count: nat): (r: seq<Product>)
    ensures |r| == if count < |filtrados| then count else |filtrados|
    ensures r <= filtrados
  {
    if count < |filtrados| then filtrados[..count] else filtrados
  }

  /** A larger count never shows fewer products, and the shown ones stay put. */
  lemma VisibleMonotone(filtrados: seq<Product>, c1: nat, c2: nat)
    requires c1 <= c2
    ensures Visible(filtrados, c1) <= Visible(filtrados, c2)
  {
  }

  /** The selector entries: "todas" first, then each non-empty value once, in
      order of first appearance. */
  function Distinct(acc: seq<string>, xs: seq<string>): (r: seq<string>)
    requires forall i, j :: 0 <= i < j < |acc| ==> acc[i] != acc[j]
    ensures forall i, j :: 0 <= i < j < |r| ==> r[i] != r[j]
    ensures acc <= r
    ensures forall x :: x in r <==> x in acc || (x != "" && x in xs)
    decreases |xs|
  {
    if xs == [] then acc
    else if xs[0] != "" && xs[0] !in acc then Distinct(acc + [xs[0]], xs[1..])
    else Distinct(acc, xs[1..])
  }

  /** A further value is added at the end exactly when it is new and non-empty,
      so the entries come in order of first appearance. */
  lemma {:induction false} DistinctSnoc(acc: seq<string>, xs: seq<string>, x: string)
    requires forall i, j :: 0 <= i < j < |acc| ==> acc[i] != acc[j]
    ensures var d := Distinct(acc, xs);
      Distinct(acc, xs + [x]) == if x != "" && x !in d then d + [x] else d
    decreases |xs|
  {
    if xs == [] {
      assert xs + [x] == [x];
      assert [x][1..] == [];
    } else {
      assert (xs + [x])[0] == xs[0];
      assert (xs + [x])[1..] == xs[1..] + [x];
      if xs[0] != "" && xs[0] !in acc {
        DistinctSnoc(acc + [xs[0]], xs[1..], x);
      } else {
        DistinctSnoc(acc, xs[1..], x);
      }
    }
  }

  function Categories(ps: seq<Product>): seq<string> {
    seq(|ps|, i requires 0 <= i < |ps| => ps[i].categoria)
  }

  /** `categorias`: the category selector's entries. */
  function Categorias(ps: seq<Product>): (r: seq<string>)
    ensures |r| >= 1 && r[0] == All
    ensures forall i, j :: 0 <= i < j < |r| ==> r[i] != r[j]
    ensures forall c :: c in r <==> c == All || (c != "" && exists p :: p in ps && p.categoria == c)
  {
    var cs := Categories(ps);
    assert forall c :: c in cs <==> exists p :: p in ps && p.categoria == c by {
      forall c | c in cs ensures exists p :: p in ps && p.categoria == c {
        var i :| 0 <= i < |cs| && cs[i] == c;
        assert ps[i] in ps;
      }
      forall p | p in ps ensures p.categoria in cs {
        var i :| 0 <= i < |ps| && ps[i] == p;
        assert cs[i] == p.categoria;
      }
    }
    Distinct([All], cs)
  }

  /** `subcategorias`: the subcategories of the products in the selected category. */
  function Subcategorias(ps: seq<Product>, categoria: string): (r: seq<string>)
    ensures |r| >= 1 && r[0] == All
    ensures forall i, j :: 0 <= i < j < |r| ==> r[i] != r[j]
    ensures forall s :: s in r <==> s == All || (s != "" && (exists p ::
              p in ps && (categoria == All || p.categoria == categoria) && p.subcategoria == s))
  {
    var inCat := InCategory(ps, categoria);
    var ss := seq(|inCat|, i requires 0 <= i < |inCat| => inCat[i].subcategoria);
    assert forall s :: s in ss <==> exists p :: p in inCat && p.subcategoria == s by {
      forall s | s in ss ensures exists p :: p in inCat && p.subcategoria == s {
        var i :| 0 <= i < |ss| && ss[i] == s;
        assert inCat[i] in inCat;
      }
      forall p | p in inCat ensures p.subcategoria in ss {
        var i :| 0 <= i < |inCat| && inCat[i] == p;
        assert ss[i] == p.subcategoria;
      }
    }
    Distinct([All], ss)
  }

  /** The products a category selection lets through, in order. */
  function InCategory(ps: seq<Product>, categoria: string): (r: seq<Product>)
    ensures forall p :: p in r <==> p in ps && (categoria == All || p.categoria == categoria)
  {
    if ps == [] then []
    else
      var rest := InCategory(ps[1..], categoria);
      assert forall p :: p in ps <==> p == ps[0] || p in ps[1..];
      if categoria == All || ps[0].categoria == categoria then [ps[0]] + rest else rest
  }
}

=== FILE: sorting.dfy ===
/** Stable sorting by an integer key pair, the behaviour of
    `Array.prototype.sort` with a comparator that subtracts keys (the
    language requires that sort to be stable). An insertion sort serves as the
    definition; its result is sorted, a permutation of the input, and keeps
    the input order among elements with equal keys. */
module Sorting {

  /** A sort key compared lexicographically: `major` first, then `minor`. */
  datatype Key = Key(major: int, minor: int)

  predicate Le(a: Key, b: Key) {
    a.major < b.major || (a.major == b.major && a.minor <= b.minor)
  }

  ghost predicate SortedBy<T>(s: seq<T>, key: T -> Key) {
    forall i, j :: 0 <= i < j < |s| ==> Le(key(s[i]), key(s[j]))
  }

  /** The elements of `s` whose key is `k`, in their order in `s`. */
  function WithKey<T>(s: seq<T>, key: T -> Key, k: Key): (r: seq<T>)
    ensures |r| <= |s|
  {
    if s == [] then []
    else (if key(s[0]) == k then [s[0]] else []) + WithKey(s[1..], key, k)
  }

  /** `WithKey` keeps exactly the elements of key `k`. */
  lemma {:induction false} WithKeyMembers<T>(s: seq<T>, key: T -> Key, k: Key, y: T)
    ensures y in WithKey(s, key, k) <==> y in s && key(y) == k
  {
    if s != [] {
      WithKeyMembers(s[1..], key, k, y);
      assert y in s <==> y == s[0] || y in s[1..];
    }
  }

  /** Inserts `x` before the first element whose key is not below its own. */
  function Insert<T>(x: T, s: seq<T>, key: T -> Key): (r: seq<T>)
    ensures multiset(r) == multiset(s) + multiset{x}
    ensures SortedBy(s, key) ==> SortedBy(r, key)
  {
    if s == [] || Le(key(x), key(s[0])) then
      InsertFront(x, s, key);
      [x] + s
    else
      var rest := Insert(x, s[1..], key);
      assert s == [s[0]] + s[1..];
      InsertBehind(x, s, key, rest);
      [s[0]] + rest
  }

  lemma InsertFront<T>(x: T, s: seq<T>, key: T -> Key)
    requires s == [] || Le(key(x), key(s[0]))
    ensures SortedBy(s, key) ==> SortedBy([x] + s, key)
  {
    if SortedBy(s, key) {
      var r := [x] + s;
      forall i, j | 0 <= i < j < |r|
        ensures Le(key(r[i]), key(r[j]))
      {
        if i == 0 && j > 1 {
          assert Le(key(s[0]), key(s[j - 1]));
        }
      }
    }
  }

  lemma InsertBehind<T>(x: T, s: seq<T>, key: T -> Key, rest: seq<T>)
    requires s != [] && !Le(key(x), key(s[0]))
    requires multiset(rest) == multiset(s[1..]) + multiset{x}
    requires SortedBy(s[1..], key) ==> SortedBy(rest, key)
    ensures SortedBy(s, key) ==> SortedBy([s[0]] + rest, key)
  {
    if SortedBy(s, key) {
      var r := [s[0]] + rest;
      forall i, j | 0 <= i < j < |r|
        ensures Le(key(r[i]), key(r[j]))
      {
        if i == 0 {
          var y := rest[j - 1];
          assert y in multiset(rest);
          if y != x {
            assert y in multiset(s[1..]);
            var m :| 0 <= m < |s[1..]| && s[1..][m] == y;
            assert s[m + 1] == y;
          }
        }
      }
    }
  }

  /** The insertion sort: sorted and a permutation of its input. */
  function SortBy<T>(s: seq<T>, key: T -> Key): (r: seq<T>)
    ensures multiset(r) == multiset(s)
    ensures |r| == |s|
    ensures SortedBy(r, key)
  {
    if s == [] then []
    else
      assert s == [s[0]] + s[1..];
      Insert(s[0], SortBy(s[1..], key), key)
  }

  /** Inserting does not move `x` past any element with its own key. */
  lemma {:induction false} InsertStable<T>(x: T, s: seq<T>, key: T -> Key, k: Key)
    ensures WithKey(Insert(x, s, key), key, k) == WithKey([x] + s, key, k)
  {
    if s != [] && !Le(key(x), key(s[0])) {
      InsertStable(x, s[1..], key, k);
      assert Insert(x, s, key) == [s[0]] + Insert(x, s[1..], key);
      assert s == [s[0]] + s[1..];
      StableStep(s[0], x, Insert(x, s[1..], key), s[1..], key, k);
    }
  }

  /** One step of the insertion: `x` passes an element of another key. */
  lemma StableStep<T>(y: T, x: T, rest: seq<T>, t: seq<T>, key: T -> Key, k: Key)
    requires key(y) != key(x)
    requires WithKey(rest, key, k) == WithKey([x] + t, key, k)
    ensures WithKey([y] + rest, key, k) == WithKey([x] + ([y] + t), key, k)
  {
    WithKeyCons(y, rest, key, k);
    WithKeyCons(x, t, key, k);
    WithKeyCons(x, [y] + t, key, k);
    WithKeyCons(y, t, key, k);
  }

  /** `WithKey` looks at the head, then at the rest. */
  lemma WithKeyCons<T>(y: T, t: seq<T>, key: T -> Key, k: Key)
    ensures WithKey([y] + t, key, k) == (if key(y) == k then [y] else []) + WithKey(t, key, k)
  {
    assert ([y] + t)[1..] == t;
  }

  /** Stability: among elements with one key, the sort keeps input order. */
  lemma {:induction false} SortStable<T>(s: seq<T>, key: T -> Key, k: Key)
    ensures WithKey(SortBy(s, key), key, k) == WithKey(s, key, k)
  {
    if s != [] {
      SortStable(s[1..], key, k);
      InsertStable(s[0], SortBy(s[1..], key), key, k);
      assert ([s[0]] + SortBy(s[1..], key))[1..] == SortBy(s[1..], key);
    }
  }

  /** An input already in key order is left exactly as it is. */
  lemma {:induction false} SortedUnchanged<T>(s: seq<T>, key: T -> Key)
    requires SortedBy(s, key)
    ensures SortBy(s, key) == s
  {
    if s != [] {
      assert SortedBy(s[1..], key);
      SortedUnchanged(s[1..], key);
      assert s == [s[0]] + s[1..];
    }
  }
}

=== FILE: text.dfy ===
/** String helpers standing for the JavaScript string methods the storefront
    calls: `toLowerCase`, `includes`, `trim`, `split`, `join`,
    `replace(",", ".")` and `replace(/\D/g, "")`. */
module Text {

  /** `toLowerCase` restricted to the ASCII letters; other characters are kept. */
  function LowerChar(c: char): char {
    if 'A' <= c <= 'Z' then (c as int + 32) as char else c
  }

  function ToLower(s: string): (r: string)
    ensures |r| == |s|
    ensures forall i :: 0 <= i < |s| ==> r[i] == LowerChar(s[i])
  {
    if s == [] then [] else [LowerChar(s[0])] + ToLower(s[1..])
  }

  /** Text without capitals is already lower case. */
  lemma ToLowerKeeps(s: string)
    requires forall i :: 0 <= i < |s| ==> !('A' <= s[i] <= 'Z')
    ensures ToLower(s) == s
  {
  }

  /** Text in which no character is a capital is its own lower case. */
  lemma NoCapitalsLower(s: string)
    requires forall c :: c in s ==> !('A' <= c <= 'Z')
    ensures ToLower(s) == s
  {
    assert forall i :: 0 <= i < |s| ==> s[i] in s;
    ToLowerKeeps(s);
  }

  lemma ToLowerIdempotent(s: string)
    ensures ToLower(ToLower(s)) == ToLower(s)
  {
  }

  /** `needle` occurs in `hay` starting at index `i`. */
  ghost predicate OccursAt(hay: string, needle: string, i: int) {
    0 <= i && i + |needle| <= |hay| && hay[i..i + |needle|] == needle
  }

  /** `hay.includes(needle)`. */
  predicate Contains(hay: string, needle: string)
    decreases |hay|
  {
    if |needle| <= |hay| && hay[..|needle|] == needle then true
    else if hay == [] then false
    else Contains(hay[1..], needle)
  }

  /** Every occurrence is found. */
  lemma {:induction false} ContainsComplete(hay: string, needle: string, i: int)
    requires OccursAt(hay, needle, i)
    ensures Contains(hay, needle)
    decreases i
  {
    if i > 0 && !(|needle| <= |hay| && hay[..|needle|] == needle) {
      assert hay[1..][i - 1..i - 1 + |needle|] == hay[i..i + |needle|];
      ContainsComplete(hay[1..], needle, i - 1);
    }
  }

  /** Only occurrences are found. */
  lemma {:induction false} ContainsSound(hay: string, needle: string)
    requires Contains(hay, needle)
    ensures exists i :: OccursAt(hay, needle, i)
    decreases |hay|
  {
    if |needle| <= |hay| && hay[..|needle|] == needle {
      assert OccursAt(hay, needle, 0);
    } else {
      ContainsSound(hay[1..], needle);
      var i :| OccursAt(hay[1..], needle, i);
      assert hay[1..][i..i + |needle|] == hay[i + 1..i + 1 + |needle|];
      assert OccursAt(hay, needle, i + 1);
    }
  }

  /** A string occurs in any concatenation that has it as a part. */
  lemma ContainsPart(a: string, b: string, c: string)
    ensures Contains(a + b + c, b)
  {
    var s := a + b + c;
    assert s[|a|..|a| + |b|] == b;
    ContainsComplete(s, b, |a|);
  }

  /** Text put in front keeps an occurrence. */
  lemma ContainsAfter(a: string, hay: string, needle: string)
    requires Contains(hay, needle)
    ensures Contains(a + hay, needle)
  {
    ContainsSound(hay, needle);
    var i :| OccursAt(hay, needle, i);
    assert (a + hay)[|a| + i..|a| + i + |needle|] == hay[i..i + |needle|];
    ContainsComplete(a + hay, needle, |a| + i);
  }

  /** Text put behind keeps an occurrence. */
  lemma ContainsBefore(hay: string, c: string, needle: string)
    requires Contains(hay, needle)
    ensures Contains(hay + c, needle)
  {
    ContainsSound(hay, needle);
    var i :| OccursAt(hay, needle, i);
    assert (hay + c)[i..i + |needle|] == hay[i..i + |needle|];
    ContainsComplete(hay + c, needle, i);
  }

  /** A string occurs at the front of anything it starts. */
  lemma ContainsFront(needle: string, rest: string)
    ensures Contains(needle + rest, needle)
  {
    assert OccursAt(needle + rest, needle, 0);
    ContainsComplete(needle + rest, needle, 0);
  }

  /** Two pieces put in front of the rest occur together at the front. */
  lemma ContainsFrontPair(a: string, b: string, rest: string)
    ensures Contains(a + (b + rest), a + b)
  {
    assert a + (b + rest) == (a + b) + rest;
    ContainsFront(a + b, rest);
  }

  /** Appending keeps a prefix. */
  lemma PrefixKept(a: string, b: string, c: string)
    ensures |a| <= |a + b + c| && (a + b + c)[..|a|] == a
  {
    assert (a + b + c)[..|a|] == (a + b)[..|a|];
  }

  lemma ContainsEmpty(hay: string)
    ensures Contains(hay, "")
  {
    assert hay[..0] == "";
  }

  /** The whitespace `trim` removes (the ASCII and Latin-1 part of it). */
  predicate IsSpace(c: char) {
    c == ' ' || c == '\t' || c == '\n' || c == '\r' || c == '\U{000B}' || c == '\U{000C}' || c == '\U{00A0}'
  }

  function TrimStart(s: string): (r: string)
    ensures |r| <= |s| && r == s[|s| - |r|..]
    ensures r == [] || !IsSpace(r[0])
    ensures forall i :: 0 <= i < |s| - |r| ==> IsSpace(s[i])
  {
    if s != [] && IsSpace(s[0]) then
      var r := TrimStart(s[1..]);
      assert s[|s| - |r|..] == s[1..][|s| - 1 - |r|..];
      assert forall i :: 1 <= i < |s| - |r| ==> s[i] == s[1..][i - 1];
      r
    else s
  }

  function TrimEnd(s: string): (r: string)
    ensures |r| <= |s| && r == s[..|r|]
    ensures r == [] || !IsSpace(r[|r| - 1])
    ensures forall i :: |r| <= i < |s| ==> IsSpace(s[i])
  {
    if s != [] && IsSpace(s[|s| - 1]) then
      var init := s[..|s| - 1];
      var r := TrimEnd(init);
      assert s[..|r|] == init[..|r|];
      assert forall i :: |r| <= i < |s| - 1 ==> s[i] == init[i];
      r
    else s
  }

  /** `trim`: drops the whitespace at both ends. The result is a prefix of
      `TrimStart(s)` (itself a suffix of `s` cut after whitespace only), and
      what it leaves off is whitespace too. */
  function Trim(s: string): (r: string)
    ensures |r| <= |s|
    ensures r == [] || (!IsSpace(r[0]) && !IsSpace(r[|r| - 1]))
    ensures |r| <= |TrimStart(s)| && r == TrimStart(s)[..|r|]
    ensures forall i :: |r| <= i < |TrimStart(s)| ==> IsSpace(TrimStart(s)[i])
  {
    var t := TrimStart(s);
    var r := TrimEnd(t);
    assert r != [] ==> r[0] == t[0];
    r
  }

  /** A word whose ends are not whitespace survives `trim`, shifted left by
      the leading whitespace that was cut. */
  lemma TrimKeepsWord(s: string, w: string, i: nat)
    requires OccursAt(s, w, i)
    requires w != [] && !IsSpace(w[0]) && !IsSpace(w[|w| - 1])
    ensures |s| - |TrimStart(s)| <= i
    ensures OccursAt(Trim(s), w, i - (|s| - |TrimStart(s)|))
  {
    TrimStartKeepsWord(s, w, i);
    TrimEndKeepsWord(TrimStart(s), w, i - (|s| - |TrimStart(s)|));
  }

  lemma TrimStartKeepsWord(s: string, w: string, i: nat)
    requires OccursAt(s, w, i) && w != [] && !IsSpace(w[0])
    ensures |s| - |TrimStart(s)| <= i
    ensures OccursAt(TrimStart(s), w, i - (|s| - |TrimStart(s)|))
  {
    var t := TrimStart(s);
    var a := |s| - |t|;
    assert s[i] == w[0];
    assert a <= i;
    assert t[i - a..i - a + |w|] == s[i..i + |w|];
  }

  lemma TrimEndKeepsWord(t: string, w: string, j: nat)
    requires OccursAt(t, w, j) && w != [] && !IsSpace(w[|w| - 1])
    ensures OccursAt(TrimEnd(t), w, j)
  {
    var r := TrimEnd(t);
    var last := j + |w| - 1;
    assert t[last] == w[|w| - 1];
    assert last < |r|;
    assert r[j..j + |w|] == t[j..j + |w|];
  }

  /** Lower-casing keeps every occurrence of a word that is already lower case. */
  lemma LowerOccurs(s: string, w: string, i: nat)
    requires OccursAt(s, w, i) && ToLower(w) == w
    ensures OccursAt(ToLower(s), w, i)
  {
    var n := ToLower(s);
    forall k | i <= k < i + |w|
      ensures n[k] == w[k - i]
    {
      assert s[k] == w[k - i];
      assert ToLower(w)[k - i] == LowerChar(w[k - i]);
    }
    assert n[i..i + |w|] == w;
  }

  /** A string with no whitespace at its ends is its own trim; in particular
      trimming twice is trimming once. */
  lemma TrimKeeps(s: string)
    requires s == [] || (!IsSpace(s[0]) && !IsSpace(s[|s| - 1]))
    ensures Trim(s) == s
  {
  }

  /** `split(sep)`: the pieces between separators; never empty. */
  function Split(s: string, sep: char): (r: seq<string>)
    ensures |r| >= 1
    ensures forall i, j :: 0 <= i < |r| && 0 <= j < |r[i]| ==> r[i][j] != sep
  {
    if s == [] then [""]
    else
      var rest := Split(s[1..], sep);
      if s[0] == sep then [""] + rest
      else [[s[0]] + rest[0]] + rest[1..]
  }

  /** `join(sep)`. */
  function Join(pieces: seq<string>, sep: string): string {
    if pieces == [] then ""
    else if |pieces| == 1 then pieces[0]
    else pieces[0] + sep + Join(pieces[1..], sep)
  }

  /** Every piece appears in the joined text. */
  lemma {:induction false} JoinHolds(pieces: seq<string>, sep: string, i: nat)
    requires i < |pieces|
    ensures Contains(Join(pieces, sep), pieces[i])
  {
    if |pieces| == 1 {
      assert pieces[0] + "" == pieces[0];
      ContainsFront(pieces[0], "");
    } else {
      var rest := Join(pieces[1..], sep);
      if i == 0 {
        ContainsFront(pieces[0], sep);
        ContainsBefore(pieces[0] + sep, rest, pieces[0]);
      } else {
        JoinHolds(pieces[1..], sep, i - 1);
        ContainsAfter(pieces[0] + sep, rest, pieces[i]);
      }
    }
  }

  /** Splitting loses nothing: joining the pieces back gives the input. */
  lemma {:induction false} SplitJoin(s: string, sep: char)
    ensures Join(Split(s, sep), [sep]) == s
  {
    if s != [] {
      var rest := Split(s[1..], sep);
      SplitJoin(s[1..], sep);
      if s[0] == sep {
        assert Join([""] + rest, [sep]) == "" + [sep] + Join(rest, [sep]);
        assert s == [s[0]] + s[1..];
      } else {
        var r := [[s[0]] + rest[0]] + rest[1..];
        if |rest| == 1 {
          assert Join(r, [sep]) == [s[0]] + rest[0];
          assert s == [s[0]] + s[1..];
        } else {
          assert Join(rest, [sep]) == rest[0] + [sep] + Join(rest[1..], [sep]);
          assert r[1..] == rest[1..];
          assert Join(r, [sep]) == [s[0]] + rest[0] + [sep] + Join(rest[1..], [sep]);
          assert s == [s[0]] + s[1..];
        }
      }
    }
  }

  /** The index of the first `c` in `s`. */
  function FirstIndex(s: string, c: char): (i: nat)
    requires c in s
    ensures i < |s| && s[i] == c && c !in s[..i]
  {
    if s[0] == c then 0
    else
      var i := FirstIndex(s[1..], c);
      assert s[..i + 1] == [s[0]] + s[1..][..i];
      i + 1
  }

  /** `replace(from, to)` with a one-character string pattern: only the first
      occurrence is replaced (see `ReplaceFirstAt`). */
  function ReplaceFirst(s: string, from: char, to: char): (r: string)
    ensures |r| == |s|
    ensures from !in s ==> r == s
  {
    if s == [] then s
    else if s[0] == from then [to] + s[1..]
    else
      assert s == [s[0]] + s[1..];
      [s[0]] + ReplaceFirst(s[1..], from, to)
  }

  /** The replacement lands on the first occurrence and nowhere else. */
  lemma {:induction false} ReplaceFirstAt(s: string, from: char, to: char)
    requires from in s
    ensures var i := FirstIndex(s, from);
      ReplaceFirst(s, from, to) == s[..i] + [to] + s[i + 1..]
  {
    if s[0] == from {
      assert s[..0] + [to] + s[1..] == [to] + s[1..];
    } else {
      var t := s[1..];
      assert from in t by {
        var k :| 0 <= k < |s| && s[k] == from;
        assert t[k - 1] == from;
      }
      ReplaceFirstAt(t, from, to);
      var j := FirstIndex(t, from);
      assert FirstIndex(s, from) == j + 1;
      assert s[..j + 1] == [s[0]] + t[..j];
      assert s[j + 2..] == t[j + 1..];
    }
  }

  predicate IsDigit(c: char) {
    '0' <= c <= '9'
  }

  /** `replace(/\D/g, "")`: keeps the decimal digits, in order. */
  function DigitsOnly(s: string): (r: string)
    ensures forall i :: 0 <= i < |r| ==> IsDigit(r[i])
    ensures |r| <= |s|
  {
    if s == [] then []
    else if IsDigit(s[0]) then [s[0]] + DigitsOnly(s[1..])
    else DigitsOnly(s[1..])
  }

  /** One character: a digit is kept, anything else is dropped. */
  lemma DigitsOnlyChar(c: char)
    ensures DigitsOnly([c]) == if IsDigit(c) then [c] else []
  {
    assert [c][1..] == [];
  }

  /** The strip works piece by piece: the digits of a concatenation are
      the digits of the first part followed by those of the second. */
  lemma {:induction false} DigitsOnlyConcat(a: string, b: string)
    ensures DigitsOnly(a + b) == DigitsOnly(a) + DigitsOnly(b)
    decreases |a|
  {
    if a != [] {
      assert (a + b)[0] == a[0];
      assert (a + b)[1..] == a[1..] + b;
      DigitsOnlyConcat(a[1..], b);
    } else {
      assert a + b == b;
    }
  }

  /** Every digit of the input occurs in the result as often as in the input. */
  lemma {:induction false} DigitsOnlyCounts(s: string, c: char)
    requires IsDigit(c)
    ensures multiset(DigitsOnly(s))[c] == multiset(s)[c]
    decreases |s|
  {
    if s != [] {
      DigitsOnlyCounts(s[1..], c);
      assert s == [s[0]] + s[1..];
    }
  }

  /** A string of digits only passes through `DigitsOnly` unchanged. */
  lemma {:induction false} DigitsOnlyKeepsDigits(s: string)
    requires forall i :: 0 <= i < |s| ==> IsDigit(s[i])
    ensures DigitsOnly(s) == s
  {
    if s != [] {
      DigitsOnlyKeepsDigits(s[1..]);
    }
  }
}

=== FILE: wrappers.dfy ===
/** The optional-value datatype used throughout the storefront model:
    `None` stands for JavaScript's `null`, `undefined` or `NaN`, depending on
    the field, and each use says which. */
module Wrappers {

  datatype Option<+T> = None | Some(value: T) {

    /** Returns the value held in Some, or the given default for None. */
    function GetOr(default: T): T {
      match this
      case Some(v) => v
      case None => default
    }
  }
}
